=== FILE: README.md ===
# Inspector profiler: a Dafny model

This project models the profiling-session coordinator of the PM2 APM agent
(`InspectorProfiler` in `src/profilers/inspectorProfiler.ts`). The coordinator
turns remote actions into sessions of the Node.js inspector and sends the
results to the transport. It has three parts:

- **The profile slot.** `onCPUProfileStart` / `onHeapProfileStart` and
  `onCPUProfileStop` / `onHeapProfileStop`, the protocol result callbacks
  that their stops register, and the auto-stop timers that their starts
  schedule. All of them share one slot, `currentProfile`.
- **The heapdump action.** `onHeapdump`: acknowledge, wait a 200 ms grace
  period, capture a heap snapshot, send it or report a late failure.
- **The snapshot reassembler.** `takeSnapshot`: subscribe to the chunk and
  progress events, post the snapshot command, and join the chunks when a
  progress event reports `finished: true`.

Each handler is a pure function from a state and its inputs to the next
state and an ordered trace of effects. The effects are:

- callback invocations;
- inspector commands posted;
- timers scheduled;
- listeners added or removed;
- transport sends;
- exceptions escaping the handler.

The collaborators are explicit inputs:

- An `Env` says whether the inspector service and the transport exist.
- The UUID generator, the clock and `JSON.stringify` become values carried
  by the events.
- Timers and protocol callbacks become events that pick one of the
  outstanding items.

Modules:

- `Wrappers`: `Option`.
- `Js`: the JavaScript semantics the handlers rely on:
  - `typeof`, including `typeof null === 'object'`;
  - the `(opts, cb)` argument normalisation;
  - property reads on the options;
  - `parseInt(x, 10)`.
- `Effects`: the session record, replies, commands, payloads, the effect
  trace and the profiler's constants.
- `Snapshot`: `takeSnapshot` for one capture, with a reference definition
  of its result.
- `Coordinator`: the profile slot state machine.
- `Heapdump`: the heapdump requests. Several captures can run at once, and
  every inspector event reaches all of them.
- `InspectorProfiler`: both parts driven by one interleaved event sequence.

The model follows the code as written:

- The slot records no kind. A CPU stop therefore ends a heap-sampling
  session, and the session is reported as a `cpuprofile`.
- The slot is cleared by the protocol's result callback (lines 163, 248),
  not by the stop handler.
- The start acknowledgment carries the whole session record in its `uuid`
  field.
- A callback that is not a function makes the handler throw a TypeError
  at the call.
- `null` options pass the `typeof` guard, so the start handler throws at
  `opts.initiated`. By then the slot is already filled, so every start is
  refused until a stop's result empties the slot; that result delivers the
  half-filled session with no `initiated` field.
- Auto-stop timers are never cancelled. A timer left over from a session
  that an explicit stop already delivered stops whatever session occupies
  the slot when it fires, even one of the other kind.
- A result callback is not tied to the session its stop saw. A second stop
  of a running session is accepted, because the slot is still occupied,
  and leaves a second result outstanding. That result delivers whatever
  session occupies the slot when it arrives, with the old stop's data and
  kind.

## Model

| member | source | states |
|---|---|---|
| Js.NormalizeArgs | src/profilers/inspectorProfiler.ts:80-86 | When `cb` is not a function, the first argument becomes the callback and the options become `{}`. A function `cb` is kept. Options survive only when `typeof` says 'object' (a plain object or `null`); anything else becomes `{}`. |
| Js.CallbackOnlyIsEmptyOptions | src/profilers/inspectorProfiler.ts:168-174 | Calling a handler with only a callback is the same as calling it with `{}` and that callback. |
| Js.NormalizeIdempotent | src/profilers/inspectorProfiler.ts:80-86 | When the normalised callback is a function, normalising the normalised arguments again changes nothing. |
| Js.ReadOption | src/profilers/inspectorProfiler.ts:283 | Reading an option fails (a TypeError) exactly for `null` and `undefined` options. Otherwise it yields the property, or `undefined` when the property is absent. |
| Js.ParseTimeout | src/profilers/inspectorProfiler.ts:117-119 | An integer timeout below 10^21 in magnitude is taken as it is. A value that is neither a number nor a string yields NaN, so no timer is set. |
| Js.ParseDigitsTimeout | src/profilers/inspectorProfiler.ts:117-119 | A string of decimal digits, optionally followed by text that does not start with a digit (such as a unit), parses to the value of the digits. The text after them is ignored. |
| Js.ParseDecimalTimeout | src/profilers/inspectorProfiler.ts:200-202 | A decimal string, optionally followed by text that does not start with a digit (such as a unit), parses to its number. This is the round trip of printing a number and parsing it back. |
| Js.ParseNegativeDecimalTimeout | src/profilers/inspectorProfiler.ts:200-202 | The same with a leading minus sign gives the negated number. |
| Js.ParseNoDigits | src/profilers/inspectorProfiler.ts:200 | Text with no decimal digit at all is NaN, so the handler returns without a timer. |
| Coordinator.StartCommand | src/profilers/inspectorProfiler.ts:111-115 | A CPU start posts `Profiler.start`. A heap-sampling start posts `startSampling` with the numeric `samplingInterval` option, or 16384 when that option is not a number. |
| Coordinator.Start | src/profilers/inspectorProfiler.ts:167-209 | No profiler: refused with 'Profiler not available', state unchanged. Occupied slot, of either kind: refused with 'A profiling is already running', state unchanged. Otherwise the slot is filled with the given uuid and start time. An accepted call first acknowledges with the session record, then posts the start command, then schedules a timer exactly when the timeout parses. A command or timer happens only for an accepted call, nothing is ever sent, and the outstanding stop callbacks are untouched. |
| Coordinator.Open | src/profilers/inspectorProfiler.ts:102-125 | The slot holds the new session, with the `initiated` string or 'manual'. A non-function callback throws before any command. Otherwise the trace is ack, then command, then a timer only when the timeout parses. |
| Coordinator.Stop | src/profilers/inspectorProfiler.ts:211-227 | The slot is never changed by a stop. Empty slot: 'No profiling are already running'. No profiler: 'Profiler not available'. Otherwise the stop acknowledges success, posts the kind's stop command and registers one result callback. A refusal or a throwing callback posts nothing and changes nothing. |
| Coordinator.Result | src/profilers/inspectorProfiler.ts:229-249 | A result callback sends exactly when the slot is occupied and the transport exists. The payload carries the session's uuid, `at` the start time, and the elapsed time as `duration`, typed by the callback's own kind. Sending and only sending empties the slot. Each callback runs once. |
| Coordinator.Fire | src/profilers/inspectorProfiler.ts:203-208 | A timer is consumed and runs the matching stop handler with the no-op callback. Every acknowledgment it causes goes to that no-op callback, never to the caller. |
| Coordinator.NullOptionsOccupySlot | src/profilers/inspectorProfiler.ts:102-106 | `null` options throw after the slot is filled. The caller gets no acknowledgment, and the next start is refused without any change, so starts keep being refused while the slot stays filled. |
| Coordinator.NullOptionsSessionDelivered | src/profilers/inspectorProfiler.ts:211-249 | The session that `null` options left in the slot is still stopped by any stop, and its result delivers it with no `initiated` field and empties the slot. After that a start is accepted again. |
| Coordinator.StaleResultDiscarded | src/profilers/inspectorProfiler.ts:231 | A result arriving after the slot was emptied sends nothing. |
| Coordinator.StepSendsClosedSession | src/profilers/inspectorProfiler.ts:238-248 | Any single event sends at most one payload. It sends only when it empties an occupied slot, and the payload names the session that was in it. |
| Coordinator.RunDeliversAtMostOncePerSession | src/profilers/inspectorProfiler.ts:229-249 | Over any sequence of starts, stops, results and timer fires, payloads sent plus an occupied slot never exceed sessions opened plus the session the run began with. Redundant stops, leftover results and late timers add no delivery beyond one per session opened; they can still deliver a later session early (see `Coordinator.RedundantStopDeliversNextSession` and `Coordinator.StaleTimerStopsNextSession`). |
| Coordinator.RunAcksBeforeCommands | src/profilers/inspectorProfiler.ts:196-198 | In every run, each start or stop command is immediately preceded by a successful acknowledgment. |
| Coordinator.StartStopDeliversOnce | src/profilers/inspectorProfiler.ts:189-249 | Start, stop and result of one kind, with any options object: the caller first hears the session record, and the transport gets exactly that one session. The slot is empty again and no result is outstanding. The start's auto-stop timer is the only thing left, exactly when the options carry a timeout that parses. |
| Coordinator.LateTimerAddsNoDelivery | src/profilers/inspectorProfiler.ts:200-224 | After an explicit stop delivered the session, a late timer that fires when no new session has started only acknowledges a failure to its own no-op callback and sends nothing. |
| Coordinator.TimerStopsSession | src/profilers/inspectorProfiler.ts:117-125 | Without an explicit stop, the timer stops the session and its result delivers it once. |
| Coordinator.StaleTimerStopsNextSession | src/profilers/inspectorProfiler.ts:200-208 | A CPU session with a timeout is stopped explicitly and delivered, and its timer stays outstanding. A heap-sampling session then starts. When the old timer fires it posts `Profiler.stop`, and the result sends the heap-sampling session (its uuid, start time and elapsed time) typed as a 'cpuprofile'. |
| Coordinator.KindlessSlot | src/profilers/inspectorProfiler.ts:183-188 | While heap sampling runs, a CPU start is refused. A CPU stop posts `Profiler.stop`, and its result reports the heap-sampling session as a 'cpuprofile'. |
| Coordinator.RedundantStopDeliversNextSession | src/profilers/inspectorProfiler.ts:211-249 | A CPU session stopped twice: the second stop is acknowledged and posts `Profiler.stop` again. The first result delivers the session and leaves one result outstanding. When a heap-sampling session then starts, that leftover result delivers it at once, with the old stop's data, typed 'cpuprofile', and empties the slot. |
| Snapshot.Begin | src/profilers/inspectorProfiler.ts:296-318 | Without a profiler the capture rejects with 'Profiler not available'. Otherwise it listens with an empty buffer, and both listeners are registered before the snapshot command is posted. |
| Snapshot.OnEvent | src/profilers/inspectorProfiler.ts:302-314 | A chunk is appended to the buffer. Progress without a profiler rejects. Progress that is not exactly `finished: true` changes nothing. A finish removes both listeners and resolves with the buffer joined. A settled capture ignores everything. |
| Snapshot.FeedMatchesReference | src/profilers/inspectorProfiler.ts:301-313 | Against an independent definition: a listening capture resolves exactly at the first finishing event, to the chunks received before it joined in order. Without a finish it keeps listening with every chunk appended. |
| Snapshot.SettledIgnoresEvents | src/profilers/inspectorProfiler.ts:311-313 | A resolved or rejected capture never changes again and does nothing more. |
| Snapshot.JoinKeepsChunk | src/profilers/inspectorProfiler.ts:313 | Joining keeps every chunk whole and in its place. |
| Snapshot.TakeSnapshotResolvesOnFinish | src/profilers/inspectorProfiler.ts:296-320 | A whole `takeSnapshot` call registers its listeners before the command and resolves if and only if a finishing event arrives, to the chunks joined in arrival order. |
| Snapshot.TakeSnapshotStopsAtFinish | src/profilers/inspectorProfiler.ts:308-313 | Unfinished progress is ignored, and chunks after the finish are not collected. |
| Snapshot.TakeSnapshotWithoutProfiler | src/profilers/inspectorProfiler.ts:299 | Without a profiler the call rejects at once and never subscribes. |
| Heapdump.OnHeapdump | src/profilers/inspectorProfiler.ts:255-274 | An accepted call acknowledges success and then schedules the 200 ms grace timer. Otherwise the (normalised) callback is called once with 'Profiler not available', or throws. Running captures are untouched and nothing is sent. |
| Heapdump.Grace | src/profilers/inspectorProfiler.ts:275-277 | A grace timer consumes its request, stamps the start time and starts a capture that listens with an empty buffer. Without a profiler the request ends with one failure to its callback. |
| Heapdump.Continue | src/profilers/inspectorProfiler.ts:278-292 | A settled capture either sends a 'heapdump' payload or reports a failure to the same callback, never both. It sends exactly when the capture resolved, the transport exists and the options are not null. The payload holds the snapshot, the grace-timer time and the elapsed time. A rejection passes its error on, and the throwing `.then` gives a TypeError. |
| Heapdump.BroadcastChunk | src/profilers/inspectorProfiler.ts:302-304 | A chunk is appended to the buffer of every running capture, in order. It settles none and does nothing else. |
| Heapdump.ConcurrentCapturesShareChunks | src/profilers/inspectorProfiler.ts:316 | Captures running at the same time each collect every chunk, so concurrent heapdumps mix each other's snapshots. |
| Heapdump.RunSendsAtMostOncePerRequest | src/profilers/inspectorProfiler.ts:255-294 | Over any run, heapdumps sent plus requests still outstanding never exceed grace timers scheduled (one per accepted call) plus the requests outstanding at the start. |
| Heapdump.StepSchedulesOnAdmission | src/profilers/inspectorProfiler.ts:271-275 | A step schedules a grace timer exactly when it queues a newly acknowledged request, and never otherwise. |
| Heapdump.OneRequestLifecycle | src/profilers/inspectorProfiler.ts:271-292 | The caller of one heapdump is first acknowledged with success. After that it hears at most one more thing, always a failure, and the snapshot is sent at most once, never together with the failure. |
| Heapdump.SnapshotDelivered | src/profilers/inspectorProfiler.ts:275-286 | A heapdump whose snapshot arrives in two chunks ends with the listeners removed and one send. The send joins the chunks in order and stamps them with the grace time, the elapsed time and the `initiated` option. |
| InspectorProfiler.RunProjects | src/profilers/inspectorProfiler.ts:79-294 | Under any interleaving, the slot part ends as the session events alone leave it, and the heapdump part as the heapdump events alone leave it. A heapdump never reads or writes the slot. |
| InspectorProfiler.RunSendsAddUp | src/profilers/inspectorProfiler.ts:79-294 | Under any interleaving, the transport receives exactly as many payloads as the two parts send when run separately. |
| InspectorProfiler.StepDeliversAtMostOnce | src/profilers/inspectorProfiler.ts:153-163 | Any single event sends at most what it closes, and opens at most one new session or heapdump request. |
| InspectorProfiler.RunDeliversAtMostOnce | src/profilers/inspectorProfiler.ts:79-294 | For the whole profiler, under any interleaving: payloads sent plus sessions and heapdump requests still open never exceed the starts that filled the slot, plus the heapdump calls that were acknowledged, plus what was open at the start. Nothing is delivered twice. |

## Left out

- `init`, `register` and `destroy` (lines 25-77), the service manager and the action registration. They only wire handlers to the outside world. The handlers are modelled as if they run with the profiler as `this`. How the action service invokes the unbound methods is not part of this model.
- The inspector protocol itself, including protocol errors passed to the result callbacks. The model assumes each posted stop gets exactly one result callback.
- `JSON.stringify`, UUID generation and `Date.now`: their values are inputs carried by the events.
- Real timers. A timer is a `Schedule` effect plus a later event that picks one outstanding timer. Delays are recorded, not enforced, so the model allows every firing order.
- Microtask ordering between promise continuations: a capture's `.then`/`.catch` runs right after the handlers of the event that settled it.
- Floating-point numbers, NaN and infinities: JavaScript numbers are integers here. `parseInt` is modelled for strings (white space, sign, decimal digits) and for integer numbers. Numbers that print in exponent form are not modelled.
- Js.ParseTimeout: a number of magnitude 10^21 or more is taken as it is. JavaScript prints it in exponent form ("1e+21"), so `parseInt` returns only its leading digit; the model has no floating-point printing, so only the recorded timer delay differs.
- Property getters, prototypes and arrays as options. Options are plain property maps.
- The logger and the debug output.

=== FILE: coordinator.dfy ===
/**
 * The profile slot state machine of the inspector profiler: the four
 * session handlers (CPU start/stop, heap-sampling start/stop), the
 * protocol callbacks their stops register, and the auto-stop timers their
 * starts schedule, as one pure step function over events.
 *
 * The slot (`currentProfile`) records no kind, so both handler pairs share
 * it: a CPU start is refused while heap sampling runs, and a CPU stop ends
 * a heap-sampling session. It is cleared by the protocol's stop result,
 * not by the stop handler.
 */
module Coordinator {
  import opened Wrappers
  import opened Js
  import opened Effects

  /**
   * The slot, plus what is still outstanding: the stop commands whose
   * result callback has not run yet, and the auto-stop timers that have
   * not fired yet. Each outstanding item remembers only which handler pair
   * created it.
   */
  datatype State = State(slot: Option<Profile>, awaiting: seq<ProfileKind>, timers: seq<ProfileKind>)

  /** The profiler right after `init`. */
  const Initial: State := State(None, [], [])

  /**
   * The inputs of the state machine. A start carries the UUID the
   * generator would return and the clock reading; a result carries the
   * serialised profile and the clock reading. `index` picks one of the
   * outstanding callbacks or timers.
   */
  datatype Event =
    | StartProfile(kind: ProfileKind, opts: JsValue, cb: JsValue, uuid: string, now: int)
    | StopProfile(kind: ProfileKind, cb: JsValue)
    | StopResult(index: nat, data: string, now: int)
    | TimerFire(index: nat)

  /** The state after a handler returns, and what it did, in order. */
  datatype Step = Step(next: State, effects: seq<Effect>)

  /** The command a start handler posts once it has acknowledged. */
  function StartCommand(kind: ProfileKind, props: map<string, JsValue>): (c: Command)
    ensures kind == Cpu ==> c == ProfilerStart
    ensures kind == HeapSampling ==> c.StartSampling?
    ensures kind == HeapSampling && Prop(props, "samplingInterval").Num? ==>
              c.samplingInterval == Prop(props, "samplingInterval").n
    ensures kind == HeapSampling && !Prop(props, "samplingInterval").Num? ==>
              c.samplingInterval == DefaultSamplingInterval
  {
    match kind
    case Cpu => ProfilerStart
    case HeapSampling =>
      var interval := Prop(props, "samplingInterval");
      StartSampling(if interval.Num? then interval.n else DefaultSamplingInterval)
  }

  /** The command a stop handler posts once it has acknowledged. */
  function StopCommand(kind: ProfileKind): Command {
    match kind
    case Cpu => ProfilerStop
    case HeapSampling => StopSampling
  }

  /**
   * A start handler accepts the call: the profiler exists, the slot is
   * empty, the normalised options are a real object (not null) and the
   * normalised callback is a function.
   */
  predicate StartAccepted(env: Env, s: State, opts: JsValue, cb: JsValue) {
    var a := NormalizeArgs(opts, cb);
    env.profilerPresent && s.slot.None? && a.opts.Obj? && a.cb.Func?
  }

  /** `onCPUProfileStart(opts, cb)` and `onHeapProfileStart(opts, cb)`. */
  function Start(env: Env, s: State, kind: ProfileKind, opts: JsValue, cb: JsValue,
                 uuid: string, now: int): (r: Step)
    // the outstanding stop callbacks are never touched, nothing is sent
    ensures r.next.awaiting == s.awaiting
    ensures SendsNothing(r.effects) && AckedCommands(r.effects)
    ensures 1 <= |r.effects| <= 3
    // refusals: no profiler, or a session of either kind already occupies the slot
    ensures !env.profilerPresent ==>
              r.next == s && r.effects == [Call(NormalizeArgs(opts, cb).cb, Failure(NotAvailableMessage))]
    ensures env.profilerPresent && s.slot.Some? ==>
              r.next == s && r.effects == [Call(NormalizeArgs(opts, cb).cb, Failure(AlreadyRunningMessage))]
    // an empty slot is filled with the new session before anything can fail
    ensures env.profilerPresent && s.slot.None? ==>
              r.next.slot.Some? && r.next.slot.value.uuid == uuid && r.next.slot.value.startTime == now
    // a command is posted, and a timer scheduled, only for an accepted call
    ensures !StartAccepted(env, s, opts, cb) ==>
              r.next.timers == s.timers && |r.effects| == 1 && !r.effects[0].Post? && !r.effects[0].Schedule?
    ensures StartAccepted(env, s, opts, cb) ==>
              var a := NormalizeArgs(opts, cb);
              var timeout := ParseTimeout(Prop(a.opts.props, "timeout"));
              && r.next.slot.value.initiated == Some(Origin(Prop(a.opts.props, "initiated")))
              && |r.effects| >= 2
              && r.effects[0] == Ack(a.cb.fn, Reply(true, None, r.next.slot))
              && r.effects[1] == Post(StartCommand(kind, a.opts.props))
              && (timeout.None? ==> |r.effects| == 2 && r.next.timers == s.timers)
              && (timeout.Some? ==> |r.effects| == 3 && r.effects[2] == Schedule(timeout.value)
                                    && r.next.timers == s.timers + [kind])
  {
    var a := NormalizeArgs(opts, cb);
    if !env.profilerPresent then Step(s, [Call(a.cb, Failure(NotAvailableMessage))])
    else if s.slot.Some? then Step(s, [Call(a.cb, Failure(AlreadyRunningMessage))])
    else if a.opts.Null? then
      // `typeof null` is 'object', so null options reach `opts.initiated`,
      // which throws after `uuid` and `startTime` have been assigned.
      Step(s.(slot := Some(Profile(uuid, now, None))), [Throw(TypeError)])
    else Open(s, kind, a.opts.props, a.cb, uuid, now)
  }

  /** The part of a start handler that runs once the slot is found empty and the options are an object. */
  function Open(s: State, kind: ProfileKind, props: map<string, JsValue>, cb: JsValue,
                uuid: string, now: int): (r: Step)
    requires s.slot.None?
    ensures r.next.awaiting == s.awaiting
    ensures r.next.slot == Some(Profile(uuid, now, Some(Origin(Prop(props, "initiated")))))
    ensures SendsNothing(r.effects) && AckedCommands(r.effects)
    ensures !cb.Func? ==> r.effects == [Throw(TypeError)] && r.next.timers == s.timers
    ensures cb.Func? ==>
              var timeout := ParseTimeout(Prop(props, "timeout"));
              && |r.effects| >= 2
              && r.effects[0] == Ack(cb.fn, Reply(true, None, r.next.slot))
              && r.effects[1] == Post(StartCommand(kind, props))
              && (timeout.None? ==> |r.effects| == 2 && r.next.timers == s.timers)
              && (timeout.Some? ==> |r.effects| == 3 && r.effects[2] == Schedule(timeout.value)
                                    && r.next.timers == s.timers + [kind])
  {
    var p := Profile(uuid, now, Some(Origin(Prop(props, "initiated"))));
    var filled := s.(slot := Some(p));
    // `cb(...)` throws when `cb` is not a function
    if !cb.Func? then Step(filled, [Throw(TypeError)])
    else
      var posted := [Ack(cb.fn, Reply(true, None, Some(p))), Post(StartCommand(kind, props))];
      var timeout := ParseTimeout(Prop(props, "timeout"));
      AckThenCommand(cb.fn, Reply(true, None, Some(p)), StartCommand(kind, props));
      if timeout.None? then Step(filled, posted)
      else Step(filled.(timers := s.timers + [kind]), posted + [Schedule(timeout.value)])
  }

  /** `onCPUProfileStop(cb)` and `onHeapProfileStop(cb)`; the timer passes its no-op callback. */
  function Stop(env: Env, s: State, kind: ProfileKind, cb: JsValue): (r: Step)
    // the slot stays occupied until the protocol result arrives
    ensures r.next.slot == s.slot && r.next.timers == s.timers
    ensures SendsNothing(r.effects) && AckedCommands(r.effects)
    ensures s.slot.None? ==> r.next == s && r.effects == [Call(cb, Failure(NoneRunningMessage))]
    ensures s.slot.Some? && !env.profilerPresent ==>
              r.next == s && r.effects == [Call(cb, Failure(NotAvailableMessage))]
    ensures s.slot.Some? && env.profilerPresent && cb.Func? ==>
              && r.effects == [Ack(cb.fn, Accepted), Post(StopCommand(kind))]
              && r.next.awaiting == s.awaiting + [kind]
    ensures !(s.slot.Some? && env.profilerPresent && cb.Func?) ==>
              r.next == s && |r.effects| == 1 && !r.effects[0].Post?
  {
    if s.slot.None? then Step(s, [Call(cb, Failure(NoneRunningMessage))])
    else if !env.profilerPresent then Step(s, [Call(cb, Failure(NotAvailableMessage))])
    else
      var ack := Call(cb, Accepted);
      if ack.Throw? then Step(s, [ack])
      else Step(s.(awaiting := s.awaiting + [kind]), [ack, Post(StopCommand(kind))])
  }

  /**
   * The result callback of `Profiler.stop` / `HeapProfiler.stopSampling`:
   * sends the session in the slot under the callback's own kind and
   * clears the slot; with the slot already empty it does nothing.
   */
  function Result(env: Env, s: State, index: nat, data: string, now: int): (r: Step)
    ensures r.next.timers == s.timers
    ensures index < |s.awaiting| ==> r.next.awaiting == RemoveAt(s.awaiting, index)
    ensures index >= |s.awaiting| ==> r == Step(s, [])
    ensures |r.effects| <= 1
    ensures |r.effects| == 1 <==> index < |s.awaiting| && s.slot.Some? && env.transportPresent
    ensures |r.effects| == 0 ==> r.next.slot == s.slot
    ensures |r.effects| == 1 ==>
              var p := s.slot.value;
              && r.next.slot.None?
              && r.effects[0] == Send(ProfilingsChannel,
                   ProfileData(p.uuid, now - p.startTime, p.startTime, data, p.initiated, s.awaiting[index]))
  {
    if index >= |s.awaiting| then Step(s, [])
    else
      var kind := s.awaiting[index];
      var rest := s.(awaiting := RemoveAt(s.awaiting, index));
      match s.slot
      case None => Step(rest, [])
      case Some(p) =>
        if !env.transportPresent then Step(rest, [])
        else
          Step(rest.(slot := None),
               [Send(ProfilingsChannel,
                     ProfileData(p.uuid, now - p.startTime, p.startTime, data, p.initiated, kind))])
  }

  /** An auto-stop timer fires: the matching stop handler runs with the no-op callback. */
  function Fire(env: Env, s: State, index: nat): (r: Step)
    ensures index >= |s.timers| ==> r == Step(s, [])
    ensures index < |s.timers| ==>
              r == Stop(env, s.(timers := RemoveAt(s.timers, index)), s.timers[index], Func(TimerNoOp))
    ensures forall i :: 0 <= i < |r.effects| && r.effects[i].Ack? ==> r.effects[i].to == TimerNoOp
  {
    if index >= |s.timers| then Step(s, [])
    else Stop(env, s.(timers := RemoveAt(s.timers, index)), s.timers[index], Func(TimerNoOp))
  }

  /** One event, dispatched to its handler. */
  function Next(env: Env, s: State, e: Event): Step {
    match e
    case StartProfile(kind, opts, cb, uuid, now) => Start(env, s, kind, opts, cb, uuid, now)
    case StopProfile(kind, cb) => Stop(env, s, kind, cb)
    case StopResult(index, data, now) => Result(env, s, index, data, now)
    case TimerFire(index) => Fire(env, s, index)
  }

  /** A sequence of events, with every effect in order. */
  function Run(env: Env, s: State, events: seq<Event>): Step
    decreases |events|
  {
    if |events| == 0 then Step(s, [])
    else
      var first := Next(env, s, events[0]);
      var rest := Run(env, first.next, events[1..]);
      Step(rest.next, first.effects + rest.effects)
  }

  /** How many events of a run filled an empty slot, i.e. opened a session. */
  function Openings(env: Env, s: State, events: seq<Event>): nat
    decreases |events|
  {
    if |events| == 0 then 0
    else
      var n := Next(env, s, events[0]).next;
      (if s.slot.None? && n.slot.Some? then 1 else 0) + Openings(env, n, events[1..])
  }

  function Occupied(s: State): nat {
    if s.slot.Some? then 1 else 0
  }

  // ---------------------------------------------------------------------
  // Properties of single handlers
  // ---------------------------------------------------------------------

  /** Invoking a start handler with only a callback behaves as passing `{}`. */
  lemma StartWithCallbackOnly(env: Env, s: State, kind: ProfileKind, f: FunctionRef, uuid: string, now: int)
    ensures Start(env, s, kind, Func(f), Undefined, uuid, now) == Start(env, s, kind, EmptyObject, Func(f), uuid, now)
  {
    CallbackOnlyIsEmptyOptions(f);
  }

  /** Options whose `typeof` is not 'object', functions included, are treated as `{}`. */
  lemma StartWithPrimitiveOptions(env: Env, s: State, kind: ProfileKind, opts: JsValue, f: FunctionRef,
                                  uuid: string, now: int)
    requires !(opts.Obj? || opts.Null?)
    ensures Start(env, s, kind, opts, Func(f), uuid, now) == Start(env, s, kind, EmptyObject, Func(f), uuid, now)
  {
  }

  /**
   * Null options pass the `typeof` guard; on an empty slot the start
   * handler then throws before acknowledging, and leaves the slot holding
   * a session nobody was told about, so every start is refused until a
   * stop's result empties the slot.
   */
  lemma NullOptionsOccupySlot(env: Env, s: State, kind: ProfileKind, f: FunctionRef, uuid: string, now: int,
                              kind2: ProfileKind, opts2: JsValue, cb2: JsValue, uuid2: string, now2: int)
    requires env.profilerPresent && s.slot.None?
    ensures var r := Start(env, s, kind, Null, Func(f), uuid, now);
            && r.effects == [Throw(TypeError)]
            && r.next.slot == Some(Profile(uuid, now, None))
            && Start(env, r.next, kind2, opts2, cb2, uuid2, now2).next == r.next
  {
  }

  /** The only session, stopped explicitly, then its result: delivered once, the slot emptied. */
  lemma StopThenResult(env: Env, p: Profile, timers: seq<ProfileKind>, kind: ProfileKind, g: FunctionRef,
                       data: string, t1: int)
    requires env.profilerPresent && env.transportPresent
    ensures var e2 := Stop(env, State(Some(p), [], timers), kind, Func(g));
            var e3 := Result(env, e2.next, 0, data, t1);
            && e2 == Step(State(Some(p), [kind], timers), [Ack(g, Accepted), Post(StopCommand(kind))])
            && e3 == Step(State(None, [], timers),
                          [Send(ProfilingsChannel,
                                ProfileData(p.uuid, t1 - p.startTime, p.startTime, data, p.initiated, kind))])
  {
    assert RemoveAt([kind], 0) == [];
  }

  /**
   * The session that `null` options left in the slot is still stopped and
   * delivered like any other, with no `initiated` field; its result empties
   * the slot, and the next start is accepted again.
   */
  lemma NullOptionsSessionDelivered(env: Env, s: State, kind: ProfileKind, f: FunctionRef, uuid: string, now: int,
                                    kind2: ProfileKind, g: FunctionRef, data: string, t1: int)
    requires env.profilerPresent && env.transportPresent
    requires s.slot.None? && s.awaiting == []
    ensures var e1 := Start(env, s, kind, Null, Func(f), uuid, now);
            var e2 := Stop(env, e1.next, kind2, Func(g));
            var e3 := Result(env, e2.next, 0, data, t1);
            && e2.effects == [Ack(g, Accepted), Post(StopCommand(kind2))]
            && e3.effects == [Send(ProfilingsChannel, ProfileData(uuid, t1 - now, now, data, None, kind2))]
            && e3.next == s
            && StartAccepted(env, e3.next, EmptyObject, Func(f))
  {
    var p := Profile(uuid, now, None);
    NullOptionsOccupySlot(env, s, kind, f, uuid, now, kind, EmptyObject, Func(f), uuid, now);
    assert Start(env, s, kind, Null, Func(f), uuid, now).next == State(Some(p), [], s.timers);
    StopThenResult(env, p, s.timers, kind2, g, data, t1);
  }

  /** The stop result of a session that is already gone is dropped. */
  lemma StaleResultDiscarded(env: Env, s: State, index: nat, data: string, now: int)
    requires s.slot.None?
    ensures Result(env, s, index, data, now).effects == []
    ensures Result(env, s, index, data, now).next.slot.None?
  {
  }

  /**
   * Per step, a send closes the session it reports: a step sends at most
   * one payload, only when it empties an occupied slot, and the payload
   * carries that session's uuid and start time.
   */
  lemma StepSendsClosedSession(env: Env, s: State, e: Event)
    ensures var r := Next(env, s, e);
            && |Sends(r.effects)| + Occupied(r.next) <= Occupied(s) + (if s.slot.None? && r.next.slot.Some? then 1 else 0)
            && (|Sends(r.effects)| > 0 ==>
                  s.slot.Some? && r.next.slot.None? && |Sends(r.effects)| == 1
                  && Sends(r.effects)[0].uuid == s.slot.value.uuid
                  && Sends(r.effects)[0].at == s.slot.value.startTime)
  {
    var r := Next(env, s, e);
    match e
    case StopResult(index, data, now) =>
      if |r.effects| == 0 {
        assert Sends(r.effects) == [];
      } else {
        assert Sends(r.effects) == [r.effects[0].payload];
      }
    case _ =>
      SendsNothingIsEmpty(r.effects);
  }

  // ---------------------------------------------------------------------
  // Properties of runs
  // ---------------------------------------------------------------------

  /**
   * Exactly-once delivery, upper half: over any sequence of starts, stops,
   * results and timer fires, the sends plus a session still in the slot
   * never outnumber the sessions opened plus the one the run began with.
   * Redundant stops, stale results and late timers add no delivery.
   */
  lemma {:induction false} RunDeliversAtMostOncePerSession(env: Env, s: State, events: seq<Event>)
    ensures var r := Run(env, s, events);
            |Sends(r.effects)| + Occupied(r.next) <= Openings(env, s, events) + Occupied(s)
    decreases |events|
  {
    if |events| > 0 {
      var first := Next(env, s, events[0]);
      var rest := Run(env, first.next, events[1..]);
      StepSendsClosedSession(env, s, events[0]);
      RunDeliversAtMostOncePerSession(env, first.next, events[1..]);
      SendsAppend(first.effects, rest.effects);
    }
  }

  /** In every run, each session command is immediately preceded by a successful acknowledgment. */
  lemma {:induction false} RunAcksBeforeCommands(env: Env, s: State, events: seq<Event>)
    ensures AckedCommands(Run(env, s, events).effects)
    decreases |events|
  {
    if |events| > 0 {
      var first := Next(env, s, events[0]);
      RunAcksBeforeCommands(env, first.next, events[1..]);
      AckedCommandsAppend(first.effects, Run(env, first.next, events[1..]).effects);
    }
  }

  // ---------------------------------------------------------------------
  // Scenarios
  // ---------------------------------------------------------------------

  /** A run of three events is its three steps, effects concatenated in order. */
  lemma RunThree(env: Env, s: State, a: Event, b: Event, c: Event)
    ensures var e1 := Next(env, s, a);
            var e2 := Next(env, e1.next, b);
            var e3 := Next(env, e2.next, c);
            Run(env, s, [a, b, c]) == Step(e3.next, e1.effects + (e2.effects + e3.effects))
  {
    var e1 := Next(env, s, a);
    var e2 := Next(env, e1.next, b);
    var e3 := Next(env, e2.next, c);
    assert [a, b, c][1..] == [b, c];
    assert [b, c][1..] == [c];
    assert Run(env, e2.next, [c]) == Step(e3.next, e3.effects + []);
    assert e3.effects + [] == e3.effects;
  }

  /** An accepted start whose options hold only a numeric timeout: the session opens and one timer is scheduled. */
  lemma StartWithTimeout(env: Env, kind: ProfileKind, delay: nat, f: nat, uuid: string, t0: int)
    requires env.profilerPresent
    ensures var r := Start(env, Initial, kind, Obj(map["timeout" := Num(delay)]), Func(Supplied(f)), uuid, t0);
            && r.next == State(Some(Profile(uuid, t0, Some(ManualOrigin))), [], [kind])
            && SendsNothing(r.effects)
  {
    var opts := Obj(map["timeout" := Num(delay)]);
    assert Prop(opts.props, "initiated") == Undefined;
    assert ParseTimeout(Prop(opts.props, "timeout")) == Some(delay as int);
  }

  /** The auto-stop timer of the only open session fires: the session is being stopped. */
  lemma TimerOfOpenSession(env: Env, p: Profile, kind: ProfileKind)
    requires env.profilerPresent
    ensures var r := Fire(env, State(Some(p), [], [kind]), 0);
            && r.next == State(Some(p), [kind], [])
            && SendsNothing(r.effects)
  {
    assert RemoveAt([kind], 0) == [];
  }

  /** The result of the only outstanding stop delivers the session in the slot and empties it. */
  lemma ResultOfOnlyStop(env: Env, p: Profile, kind: ProfileKind, data: string, now: int)
    requires env.transportPresent
    ensures Result(env, State(Some(p), [kind], []), 0, data, now)
              == Step(Initial, [Send(ProfilingsChannel,
                                     ProfileData(p.uuid, now - p.startTime, p.startTime, data, p.initiated, kind))])
  {
    assert RemoveAt([kind], 0) == [];
  }

  /** What is sent over three steps, when only the last one sends. */
  lemma SendsOfLast(x: seq<Effect>, y: seq<Effect>, z: seq<Effect>)
    requires SendsNothing(x) && SendsNothing(y)
    ensures Sends(x + (y + z)) == Sends(z)
  {
    SendsAppend(x, y + z);
    SendsAppend(y, z);
    SendsNothingIsEmpty(x);
    SendsNothingIsEmpty(y);
  }

  /**
   * A start then a stop of the same kind, then the stop's result: the
   * caller gets the session at start, and the transport receives exactly
   * one payload with that uuid, `at` the start time and the elapsed time
   * as duration; the slot is empty again, and only the start's auto-stop
   * timer, if it set one, is left outstanding.
   */
  lemma StartStopDeliversOnce(env: Env, kind: ProfileKind, props: map<string, JsValue>, f: nat, g: nat,
                              uuid: string, t0: int, data: string, t1: int)
    requires env.profilerPresent && env.transportPresent
    ensures var r := Run(env, Initial, [StartProfile(kind, Obj(props), Func(Supplied(f)), uuid, t0),
                                        StopProfile(kind, Func(Supplied(g))),
                                        StopResult(0, data, t1)]);
            var p := Profile(uuid, t0, Some(Origin(Prop(props, "initiated"))));
            && r.next == Initial.(timers := if ParseTimeout(Prop(props, "timeout")).Some? then [kind] else [])
            && AcksTo(Supplied(f), r.effects)[0] == Reply(true, None, Some(p))
            && Sends(r.effects) == [ProfileData(uuid, t1 - t0, t0, data, p.initiated, kind)]
            && (t1 >= t0 ==> Sends(r.effects)[0].duration >= 0)
  {
    var a := StartProfile(kind, Obj(props), Func(Supplied(f)), uuid, t0);
    RunThree(env, Initial, a, StopProfile(kind, Func(Supplied(g))), StopResult(0, data, t1));
    var p := Profile(uuid, t0, Some(Origin(Prop(props, "initiated"))));
    var timers := if ParseTimeout(Prop(props, "timeout")).Some? then [kind] else [];
    var e1 := Start(env, Initial, kind, Obj(props), Func(Supplied(f)), uuid, t0);
    assert e1.next == State(Some(p), [], timers);
    assert e1.effects[0] == Ack(Supplied(f), Reply(true, None, Some(p)));
    StopThenResult(env, p, timers, kind, Supplied(g), data, t1);
    var e2 := Stop(env, e1.next, kind, Func(Supplied(g)));
    var e3 := Result(env, e2.next, 0, data, t1);
    SendsOfLast(e1.effects, e2.effects, e3.effects);
    assert Sends(e3.effects) == [e3.effects[0].payload];
    AcksToFirst(Supplied(f), e1.effects + (e2.effects + e3.effects));
  }

  /**
   * A start with a timeout, an explicit stop and its result, then the
   * timer: the late timer finds the slot empty, acknowledges a failure to
   * its own no-op callback, and sends nothing, so the session is
   * delivered exactly once.
   */
  lemma LateTimerAddsNoDelivery(env: Env, kind: ProfileKind, delay: nat, f: nat, g: nat,
                                uuid: string, t0: int, data: string, t1: int)
    requires env.profilerPresent && env.transportPresent
    ensures var opts := Obj(map["timeout" := Num(delay)]);
            var r1 := Run(env, Initial, [StartProfile(kind, opts, Func(Supplied(f)), uuid, t0),
                                         StopProfile(kind, Func(Supplied(g))),
                                         StopResult(0, data, t1)]);
            var r2 := Fire(env, r1.next, 0);
            && r1.next == Initial.(timers := [kind])
            && |Sends(r1.effects)| == 1
            && r2.next == Initial
            && r2.effects == [Ack(TimerNoOp, Failure(NoneRunningMessage))]
  {
    var opts := Obj(map["timeout" := Num(delay)]);
    RunThree(env, Initial, StartProfile(kind, opts, Func(Supplied(f)), uuid, t0),
             StopProfile(kind, Func(Supplied(g))), StopResult(0, data, t1));
    var p := Profile(uuid, t0, Some(ManualOrigin));
    StartWithTimeout(env, kind, delay, f, uuid, t0);
    var e1 := Start(env, Initial, kind, opts, Func(Supplied(f)), uuid, t0);
    var e2 := Stop(env, e1.next, kind, Func(Supplied(g)));
    assert e2.next == State(Some(p), [kind], [kind]);
    var e3 := Result(env, e2.next, 0, data, t1);
    assert e3.next == Initial.(timers := [kind]);
    SendsOfLast(e1.effects, e2.effects, e3.effects);
    assert Sends(e3.effects) == [e3.effects[0].payload];
  }

  /**
   * Without an explicit stop, the auto-stop timer ends the session and its
   * result delivers it.
   */
  lemma TimerStopsSession(env: Env, kind: ProfileKind, delay: nat, f: nat,
                          uuid: string, t0: int, data: string, t1: int)
    requires env.profilerPresent && env.transportPresent
    ensures var opts := Obj(map["timeout" := Num(delay)]);
            var r := Run(env, Initial, [StartProfile(kind, opts, Func(Supplied(f)), uuid, t0),
                                        TimerFire(0),
                                        StopResult(0, data, t1)]);
            && r.next == Initial
            && Sends(r.effects) == [ProfileData(uuid, t1 - t0, t0, data, Some(ManualOrigin), kind)]
  {
    var opts := Obj(map["timeout" := Num(delay)]);
    RunThree(env, Initial, StartProfile(kind, opts, Func(Supplied(f)), uuid, t0), TimerFire(0), StopResult(0, data, t1));
    StartWithTimeout(env, kind, delay, f, uuid, t0);
    var e1 := Start(env, Initial, kind, opts, Func(Supplied(f)), uuid, t0);
    var p := Profile(uuid, t0, Some(ManualOrigin));
    TimerOfOpenSession(env, p, kind);
    var e2 := Fire(env, e1.next, 0);
    ResultOfOnlyStop(env, p, kind, data, t1);
    var e3 := Result(env, e2.next, 0, data, t1);
    SendsOfLast(e1.effects, e2.effects, e3.effects);
    assert Sends(e3.effects) == [e3.effects[0].payload];
  }

  /**
   * The slot has no kind: while heap sampling runs a CPU start is refused,
   * and a CPU stop posts `Profiler.stop` and delivers the heap-sampling
   * session as a 'cpuprofile'.
   */
  lemma KindlessSlot(env: Env, f: nat, g: nat, h: nat, uuid: string, t0: int, uuid2: string, t1: int,
                     data: string, t2: int)
    requires env.profilerPresent && env.transportPresent
    ensures var e1 := Start(env, Initial, HeapSampling, EmptyObject, Func(Supplied(f)), uuid, t0);
            var e2 := Start(env, e1.next, Cpu, EmptyObject, Func(Supplied(g)), uuid2, t1);
            var e3 := Stop(env, e2.next, Cpu, Func(Supplied(h)));
            var e4 := Result(env, e3.next, 0, data, t2);
            && e2.next == e1.next
            && e2.effects == [Ack(Supplied(g), Failure(AlreadyRunningMessage))]
            && e3.effects == [Ack(Supplied(h), Accepted), Post(ProfilerStop)]
            && e4.effects == [Send(ProfilingsChannel, ProfileData(uuid, t2 - t0, t0, data, Some(ManualOrigin), Cpu))]
            && e4.effects[0].payload.Type() == "cpuprofile"
  {
    var p := Profile(uuid, t0, Some(ManualOrigin));
    var e1 := Start(env, Initial, HeapSampling, EmptyObject, Func(Supplied(f)), uuid, t0);
    assert e1.next == State(Some(p), [], []);
    StopThenResult(env, p, [], Cpu, Supplied(h), data, t2);
  }

  /**
   * A CPU timer left outstanding fires during a heap-sampling session:
   * it stops that session with `Profiler.stop`, and the result reports
   * it as a 'cpuprofile'.
   */
  lemma StaleCpuTimerDuringHeapSampling(env: Env, h: nat, uuid2: string, t2: int, data2: string, t3: int)
    requires env.profilerPresent && env.transportPresent
    ensures var e1 := Start(env, Initial.(timers := [Cpu]), HeapSampling, EmptyObject, Func(Supplied(h)), uuid2, t2);
            var e2 := Fire(env, e1.next, 0);
            var e3 := Result(env, e2.next, 0, data2, t3);
            && e1.next.slot == Some(Profile(uuid2, t2, Some(ManualOrigin)))
            && e2.effects == [Ack(TimerNoOp, Accepted), Post(ProfilerStop)]
            && e3.effects == [Send(ProfilingsChannel,
                                   ProfileData(uuid2, t3 - t2, t2, data2, Some(ManualOrigin), Cpu))]
            && e3.next == Initial
  {
    var p := Profile(uuid2, t2, Some(ManualOrigin));
    var e1 := Start(env, Initial.(timers := [Cpu]), HeapSampling, EmptyObject, Func(Supplied(h)), uuid2, t2);
    assert e1.next == State(Some(p), [], [Cpu]);
    TimerOfOpenSession(env, p, Cpu);
    ResultOfOnlyStop(env, p, Cpu, data2, t3);
  }

  /**
   * Auto-stop timers are never cancelled. The timer of a CPU session that
   * an explicit stop already delivered stays outstanding; when it fires
   * during a later heap-sampling session it stops that session, which is
   * then reported as a 'cpuprofile'.
   */
  lemma StaleTimerStopsNextSession(env: Env, delay: nat, f: nat, g: nat, h: nat, uuid: string, t0: int,
                                   data: string, t1: int, uuid2: string, t2: int, data2: string, t3: int)
    requires env.profilerPresent && env.transportPresent
    ensures var r1 := Run(env, Initial, [StartProfile(Cpu, Obj(map["timeout" := Num(delay)]), Func(Supplied(f)), uuid, t0),
                                         StopProfile(Cpu, Func(Supplied(g))),
                                         StopResult(0, data, t1)]);
            var e1 := Start(env, r1.next, HeapSampling, EmptyObject, Func(Supplied(h)), uuid2, t2);
            var e2 := Fire(env, e1.next, 0);
            var e3 := Result(env, e2.next, 0, data2, t3);
            && |Sends(r1.effects)| == 1
            && r1.next.timers == [Cpu]
            && e2.effects == [Ack(TimerNoOp, Accepted), Post(ProfilerStop)]
            && e3.effects == [Send(ProfilingsChannel,
                                   ProfileData(uuid2, t3 - t2, t2, data2, Some(ManualOrigin), Cpu))]
            && e3.effects[0].payload.Type() == "cpuprofile"
            && e3.next == Initial
  {
    LateTimerAddsNoDelivery(env, Cpu, delay, f, g, uuid, t0, data, t1);
    StaleCpuTimerDuringHeapSampling(env, h, uuid2, t2, data2, t3);
  }

  /** Two stops of the only session, then the first result: it is delivered, and one result stays outstanding. */
  lemma StopTwiceThenResult(env: Env, p: Profile, kind: ProfileKind, g: FunctionRef, g2: FunctionRef,
                            data: string, t1: int)
    requires env.profilerPresent && env.transportPresent
    ensures var e2 := Stop(env, State(Some(p), [], []), kind, Func(g));
            var e3 := Stop(env, e2.next, kind, Func(g2));
            var e4 := Result(env, e3.next, 0, data, t1);
            && e3.effects == [Ack(g2, Accepted), Post(StopCommand(kind))]
            && e4 == Step(State(None, [kind], []),
                          [Send(ProfilingsChannel,
                                ProfileData(p.uuid, t1 - p.startTime, p.startTime, data, p.initiated, kind))])
  {
    assert RemoveAt([kind, kind], 0) == [kind];
  }

  /** A result left outstanding by an earlier stop arrives while a new session runs: it delivers that session. */
  lemma LeftoverResultDuringNextSession(env: Env, kind: ProfileKind, kind2: ProfileKind, h: nat,
                                        uuid2: string, t2: int, data2: string, t3: int)
    requires env.profilerPresent && env.transportPresent
    ensures var e1 := Start(env, State(None, [kind], []), kind2, EmptyObject, Func(Supplied(h)), uuid2, t2);
            var e2 := Result(env, e1.next, 0, data2, t3);
            && e1.effects == [Ack(Supplied(h), Reply(true, None, Some(Profile(uuid2, t2, Some(ManualOrigin))))),
                              Post(StartCommand(kind2, map[]))]
            && e2 == Step(Initial, [Send(ProfilingsChannel,
                                         ProfileData(uuid2, t3 - t2, t2, data2, Some(ManualOrigin), kind))])
  {
    var e1 := Start(env, State(None, [kind], []), kind2, EmptyObject, Func(Supplied(h)), uuid2, t2);
    assert e1.next == State(Some(Profile(uuid2, t2, Some(ManualOrigin))), [kind], []);
    assert RemoveAt([kind], 0) == [];
  }

  /**
   * A result callback is not tied to the session its stop saw. A second,
   * redundant stop is accepted while the slot is still occupied; after
   * the first result delivers the session, the second result stays
   * outstanding, and when it arrives during the next session it delivers
   * that session early, with the old stop's data and kind.
   */
  lemma RedundantStopDeliversNextSession(env: Env, f: nat, g: nat, g2: nat, h: nat, uuid: string, t0: int,
                                         data: string, t1: int, uuid2: string, t2: int, data2: string, t3: int)
    requires env.profilerPresent && env.transportPresent
    ensures var e1 := Start(env, Initial, Cpu, EmptyObject, Func(Supplied(f)), uuid, t0);
            var e2 := Stop(env, e1.next, Cpu, Func(Supplied(g)));
            var e3 := Stop(env, e2.next, Cpu, Func(Supplied(g2)));
            var e4 := Result(env, e3.next, 0, data, t1);
            var e5 := Start(env, e4.next, HeapSampling, EmptyObject, Func(Supplied(h)), uuid2, t2);
            var e6 := Result(env, e5.next, 0, data2, t3);
            && e3.effects == [Ack(Supplied(g2), Accepted), Post(ProfilerStop)]
            && e4.effects == [Send(ProfilingsChannel, ProfileData(uuid, t1 - t0, t0, data, Some(ManualOrigin), Cpu))]
            && e4.next == State(None, [Cpu], [])
            && e5.effects[0] == Ack(Supplied(h), Reply(true, None, Some(Profile(uuid2, t2, Some(ManualOrigin)))))
            && e6.effects == [Send(ProfilingsChannel,
                                   ProfileData(uuid2, t3 - t2, t2, data2, Some(ManualOrigin), Cpu))]
            && e6.next == Initial
  {
    var p := Profile(uuid, t0, Some(ManualOrigin));
    var e1 := Start(env, Initial, Cpu, EmptyObject, Func(Supplied(f)), uuid, t0);
    assert e1.next == State(Some(p), [], []);
    StopTwiceThenResult(env, p, Cpu, Supplied(g), Supplied(g2), data, t1);
    LeftoverResultDuringNextSession(env, Cpu, HeapSampling, h, uuid2, t2, data2, t3);
  }
}

=== FILE: effects.dfy ===
/**
 * What the profiler observes and what it does to the outside world: the
 * session record, the acknowledgment objects handed to callbacks, the
 * inspector commands it posts, the payloads it sends to the transport,
 * and one ordered trace type that records all of them.
 */
module Effects {
  import opened Wrappers
  import opened Js

  // Fixed strings and numbers of the profiler.
  const ProfilingsChannel: string := "profilings"
  const ManualOrigin: string := "manual"
  const NotAvailableMessage: string := "Profiler not available"
  const AlreadyRunningMessage: string := "A profiling is already running"
  const NoneRunningMessage: string := "No profiling are already running"
  const DefaultSamplingInterval: int := 16384
  const HeapdumpGraceDelay: int := 200

  /**
   * Which handler pair a call belongs to. The profile slot itself records
   * no kind: only the handlers and their protocol callbacks know it.
   */
  datatype ProfileKind = Cpu | HeapSampling

  /**
   * Which collaborators `init` found: the inspector service and the
   * transport service. Both are fixed for the lifetime of the profiler.
   */
  datatype Env = Env(profilerPresent: bool, transportPresent: bool)

  /**
   * The `CurrentProfile` record. `initiated` is None only when filling it
   * was interrupted by an exception before the field was assigned.
   */
  datatype Profile = Profile(uuid: string, startTime: int, initiated: Option<string>)

  /** A value a callback receives as `err`, or a handler throws. */
  datatype ErrorValue =
    | Error(message: string)   // `new Error(message)`
    | TypeError                // a JavaScript TypeError (call of a non-function, property of null/undefined)

  /** The acknowledgment object `{ success, err?, uuid? }` handed to a callback. */
  datatype Reply = Reply(success: bool, err: Option<ErrorValue>, uuid: Option<Profile>)

  /** `{ success: false, err }` */
  function FailedWith(err: ErrorValue): Reply {
    Reply(false, Some(err), None)
  }

  /** `{ success: false, err: new Error(message) }` */
  function Failure(message: string): Reply {
    FailedWith(Error(message))
  }

  /** `typeof initiated === 'string' ? initiated : 'manual'` */
  function Origin(initiated: JsValue): string {
    if initiated.Str? then initiated.s else ManualOrigin
  }

  /** An outstanding callback or timer list without the one that just ran. */
  function RemoveAt<T>(xs: seq<T>, i: nat): (r: seq<T>)
    requires i < |xs|
    ensures |r| == |xs| - 1
    ensures multiset(r) + multiset{xs[i]} == multiset(xs)
  {
    assert xs == xs[..i] + [xs[i]] + xs[i + 1..];
    xs[..i] + xs[i + 1..]
  }

  const Accepted: Reply := Reply(true, None, None)

  /** The inspector protocol commands the core posts. */
  datatype Command =
    | ProfilerStart
    | ProfilerStop
    | StartSampling(samplingInterval: int)
    | StopSampling
    | TakeHeapSnapshot

  /** The inspector events the snapshot capture subscribes to. */
  datatype EventName = AddHeapSnapshotChunk | ReportHeapSnapshotProgress

  /**
   * The objects sent on the 'profilings' channel. Both profile payloads
   * also carry `success: true` and a boolean flag named after their `type`;
   * those are constants of the kind and are not stored.
   */
  datatype Payload =
    | ProfileData(uuid: string, duration: int, at: int, data: string,
                  initiated: Option<string>, kind: ProfileKind)
    | HeapdumpData(data: string, at: int, initiated: Option<string>, duration: int)
  {
    /** The `type` field of the payload. */
    function Type(): string {
      match this
      case ProfileData(_, _, _, _, _, Cpu) => "cpuprofile"
      case ProfileData(_, _, _, _, _, HeapSampling) => "heapprofile"
      case HeapdumpData(_, _, _, _) => "heapdump"
    }
  }

  /** One externally visible action, in the order the handler performs it. */
  datatype Effect =
    | Ack(to: FunctionRef, reply: Reply)       // a callback invocation
    | Post(command: Command)                   // `profiler.post(command, ...)`
    | Schedule(delay: int)                     // `setTimeout(..., delay)`
    | Listen(event: EventName)                 // `profiler.on(event, handler)`
    | Unlisten(event: EventName)               // `profiler.removeListener(event, handler)`
    | Send(channel: string, payload: Payload)  // `transport.send(channel, payload)`
    | Throw(error: ErrorValue)                 // an exception escaping the handler

  /**
   * `cb(reply)`: an acknowledgment when `cb` is a function, otherwise the
   * TypeError JavaScript throws for calling a non-function.
   */
  function Call(cb: JsValue, reply: Reply): (e: Effect)
    ensures e.Ack? <==> cb.Func?
    ensures e.Ack? ==> e.to == cb.fn && e.reply == reply
    ensures e.Throw? ==> e.error == TypeError
    ensures e.Ack? || e.Throw?
  {
    if cb.Func? then Ack(cb.fn, reply) else Throw(TypeError)
  }

  /** The payloads sent on the transport, in order. */
  function Sends(effects: seq<Effect>): (r: seq<Payload>)
    ensures |r| <= |effects|
  {
    if |effects| == 0 then []
    else (if effects[0].Send? then [effects[0].payload] else []) + Sends(effects[1..])
  }

  /** The replies a given callback received, in order. */
  function AcksTo(f: FunctionRef, effects: seq<Effect>): seq<Reply> {
    if |effects| == 0 then []
    else (if effects[0].Ack? && effects[0].to == f then [effects[0].reply] else [])
         + AcksTo(f, effects[1..])
  }

  lemma {:induction false} SendsAppend(a: seq<Effect>, b: seq<Effect>)
    ensures Sends(a + b) == Sends(a) + Sends(b)
    decreases |a|
  {
    if |a| > 0 {
      assert (a + b)[1..] == a[1..] + b;
      SendsAppend(a[1..], b);
    } else {
      assert a + b == b;
    }
  }

  lemma {:induction false} AcksToAppend(f: FunctionRef, a: seq<Effect>, b: seq<Effect>)
    ensures AcksTo(f, a + b) == AcksTo(f, a) + AcksTo(f, b)
    decreases |a|
  {
    if |a| > 0 {
      assert (a + b)[1..] == a[1..] + b;
      AcksToAppend(f, a[1..], b);
    } else {
      assert a + b == b;
    }
  }

  /** A trace that starts with an acknowledgment to `f` hands `f` that reply first. */
  lemma AcksToFirst(f: FunctionRef, effects: seq<Effect>)
    requires |effects| > 0 && effects[0].Ack? && effects[0].to == f
    ensures |AcksTo(f, effects)| > 0 && AcksTo(f, effects)[0] == effects[0].reply
  {
  }

  /** A trace in which nothing is sent on the transport. */
  predicate SendsNothing(effects: seq<Effect>) {
    forall i :: 0 <= i < |effects| ==> !effects[i].Send?
  }

  lemma {:induction false} SendsNothingIsEmpty(effects: seq<Effect>)
    requires SendsNothing(effects)
    ensures Sends(effects) == []
    decreases |effects|
  {
    if |effects| > 0 {
      SendsNothingIsEmpty(effects[1..]);
    }
  }

  /** A command that opens or closes a profiling session. */
  predicate IsSessionCommand(c: Command) {
    c.ProfilerStart? || c.ProfilerStop? || c.StartSampling? || c.StopSampling?
  }

  /**
   * Ack-before-command discipline: every session command in the trace is
   * immediately preceded by a successful acknowledgment.
   */
  predicate AckedCommands(effects: seq<Effect>) {
    forall i :: 0 <= i < |effects| && effects[i].Post? && IsSessionCommand(effects[i].command) ==>
      0 < i && effects[i - 1].Ack? && effects[i - 1].reply.success
  }

  /** A successful acknowledgment followed by its command, optionally then a timer. */
  lemma AckThenCommand(f: FunctionRef, reply: Reply, c: Command)
    requires reply.success
    ensures SendsNothing([Ack(f, reply), Post(c)]) && AckedCommands([Ack(f, reply), Post(c)])
    ensures forall d :: SendsNothing([Ack(f, reply), Post(c)] + [Schedule(d)])
    ensures forall d :: AckedCommands([Ack(f, reply), Post(c)] + [Schedule(d)])
  {
    forall d ensures AckedCommands([Ack(f, reply), Post(c)] + [Schedule(d)]) {
      var e := [Ack(f, reply), Post(c)] + [Schedule(d)];
      assert e == [Ack(f, reply), Post(c), Schedule(d)];
    }
  }

  /** The discipline survives concatenating traces that each keep it. */
  lemma AckedCommandsAppend(a: seq<Effect>, b: seq<Effect>)
    requires AckedCommands(a) && AckedCommands(b)
    ensures AckedCommands(a + b)
  {
    var ab := a + b;
    forall i | 0 <= i < |ab| && ab[i].Post? && IsSessionCommand(ab[i].command)
      ensures 0 < i && ab[i - 1].Ack? && ab[i - 1].reply.success
    {
      if i < |a| {
        assert ab[i] == a[i];
        assert ab[i - 1] == a[i - 1];
      } else {
        assert ab[i] == b[i - |a|];
        assert 0 < i - |a|;
        assert ab[i - 1] == b[i - 1 - |a|];
      }
    }
  }
}

=== FILE: heapdump.dfy ===
/**
 * The heapdump action `onHeapdump`: acknowledge first, wait a grace
 * period, capture a heap snapshot with `takeSnapshot`, then send it on the
 * 'profilings' channel, or report a late failure by calling the same
 * callback a second time. It keeps its own requests and never reads or
 * writes the profile slot.
 *
 * Several heapdumps can run at once. Each capture subscribes its own
 * handlers, and the inspector calls every subscribed handler for every
 * event, in subscription order.
 */
module Heapdump {
  import opened Wrappers
  import opened Js
  import opened Effects
  import opened Snapshot

  /** An acknowledged request whose grace timer has not fired yet. */
  datatype Waiting = Waiting(opts: JsValue, cb: JsValue)

  /** A request whose snapshot capture runs; `startTime` was read when the grace timer fired. */
  datatype Running = Running(opts: JsValue, cb: JsValue, startTime: int, capture: Capture)

  /** The outstanding heapdump requests, running captures in subscription order. */
  datatype Dumps = Dumps(waiting: seq<Waiting>, running: seq<Running>)

  const NoDumps: Dumps := Dumps([], [])

  /** Every running capture is still listening: settled ones are dropped at once. */
  predicate Valid(d: Dumps) {
    forall i :: 0 <= i < |d.running| ==> d.running[i].capture.Listening?
  }

  /** Requests not yet finished: waiting for the grace timer or capturing. */
  function Pending(d: Dumps): nat {
    |d.waiting| + |d.running|
  }

  /**
   * The inputs: a call of the action, the grace timer of one waiting
   * request firing at clock reading `now`, and an inspector snapshot event
   * (`now` is the clock reading when a continuation reads it).
   */
  datatype Event =
    | HeapdumpCall(opts: JsValue, cb: JsValue)
    | GraceElapsed(index: nat, now: int)
    | SnapshotInput(event: SnapshotEvent, now: int)

  datatype Step = Step(next: Dumps, effects: seq<Effect>)

  /** Callback invocations and transport sends in a trace. */
  function Outcomes(effects: seq<Effect>): nat {
    if |effects| == 0 then 0
    else (if effects[0].Ack? || effects[0].Send? then 1 else 0) + Outcomes(effects[1..])
  }

  lemma {:induction false} OutcomesAppend(a: seq<Effect>, b: seq<Effect>)
    ensures Outcomes(a + b) == Outcomes(a) + Outcomes(b)
    decreases |a|
  {
    if |a| > 0 {
      assert (a + b)[1..] == a[1..] + b;
      OutcomesAppend(a[1..], b);
    } else {
      assert a + b == b;
    }
  }

  /** Every callback invocation in the trace is a failure report to `f`. */
  predicate LateFailuresTo(f: FunctionRef, effects: seq<Effect>) {
    forall i :: 0 <= i < |effects| && effects[i].Ack? ==> effects[i].to == f && !effects[i].reply.success
  }

  /** `onHeapdump(opts, cb)`: normalise, acknowledge, schedule the grace timer. */
  function OnHeapdump(env: Env, d: Dumps, opts: JsValue, cb: JsValue): (r: Step)
    ensures r.next.running == d.running
    ensures SendsNothing(r.effects)
    ensures var a := NormalizeArgs(opts, cb);
            if env.profilerPresent && a.cb.Func? then
              && r.effects == [Ack(a.cb.fn, Accepted), Schedule(HeapdumpGraceDelay)]
              && r.next.waiting == d.waiting + [Waiting(a.opts, a.cb)]
            else
              && r.next == d
              && r.effects == [Call(a.cb, if env.profilerPresent then Accepted else Failure(NotAvailableMessage))]
  {
    var a := NormalizeArgs(opts, cb);
    if !env.profilerPresent then Step(d, [Call(a.cb, Failure(NotAvailableMessage))])
    else
      var ack := Call(a.cb, Accepted);
      if ack.Throw? then Step(d, [ack])
      else Step(d.(waiting := d.waiting + [Waiting(a.opts, a.cb)]), [ack, Schedule(HeapdumpGraceDelay)])
  }

  /**
   * The `.then(send).catch(cb)` continuation of a settled capture. The
   * `.then` callback throws, and so turns into a late failure, when the
   * transport is missing or the options are null.
   */
  function Continue(env: Env, opts: JsValue, cb: JsValue, startTime: int, c: Capture, now: int): (e: Effect)
    requires c.Settled()
    ensures e.Send? <==> c.Resolved? && env.transportPresent && !(opts.Null? || opts.Undefined?)
    ensures e.Send? ==> e == Send(ProfilingsChannel,
                                  HeapdumpData(c.data, startTime, Some(Origin(ReadOption(opts, "initiated").value)),
                                               now - startTime))
    ensures e.Send? ==> e.payload.Type() == "heapdump"
    ensures !e.Send? ==> e == Call(cb, FailedWith(if c.Rejected? then c.error else TypeError))
  {
    match c
    case Rejected(err) => Call(cb, FailedWith(err))
    case Resolved(data) =>
      if !env.transportPresent then Call(cb, FailedWith(TypeError))
      else
        match ReadOption(opts, "initiated")
        case None => Call(cb, FailedWith(TypeError))
        case Some(initiated) =>
          Send(ProfilingsChannel, HeapdumpData(data, startTime, Some(Origin(initiated)), now - startTime))
  }

  /** The grace timer of waiting request `index` fires: read the clock, start the capture. */
  function Grace(env: Env, d: Dumps, index: nat, now: int): (r: Step)
    ensures index >= |d.waiting| ==> r == Step(d, [])
    ensures index < |d.waiting| ==> r.next.waiting == RemoveAt(d.waiting, index)
    ensures index < |d.waiting| && env.profilerPresent ==>
              var w := d.waiting[index];
              && r.next.running == d.running + [Running(w.opts, w.cb, now, Listening([]))]
              && r.effects == Begin(true).effects
    ensures index < |d.waiting| && !env.profilerPresent ==>
              && r.next.running == d.running
              && r.effects == [Call(d.waiting[index].cb, Failure(NotAvailableMessage))]
  {
    if index >= |d.waiting| then Step(d, [])
    else
      var w := d.waiting[index];
      var rest := RemoveAt(d.waiting, index);
      var begun := Begin(env.profilerPresent);
      if begun.capture.Settled() then
        Step(Dumps(rest, d.running), [Continue(env, w.opts, w.cb, now, begun.capture, now)])
      else
        Step(Dumps(rest, d.running + [Running(w.opts, w.cb, now, begun.capture)]), begun.effects)
  }

  /**
   * One inspector event through every running capture: `handled` are the
   * handlers' own effects in subscription order, `continued` the promise
   * continuations of the captures it settled, which run after the handlers.
   */
  datatype Broadcasted = Broadcasted(running: seq<Running>, handled: seq<Effect>, continued: seq<Effect>)

  function Broadcast(env: Env, running: seq<Running>, e: SnapshotEvent, now: int): (r: Broadcasted)
    requires forall i :: 0 <= i < |running| ==> running[i].capture.Listening?
    ensures forall i :: 0 <= i < |r.running| ==> r.running[i].capture.Listening?
    ensures |r.running| + |r.continued| == |running|
    ensures forall i :: 0 <= i < |r.handled| ==> r.handled[i].Unlisten?
    ensures forall i :: 0 <= i < |r.continued| ==> r.continued[i].Send? || r.continued[i].Ack? || r.continued[i].Throw?
    decreases |running|
  {
    if |running| == 0 then Broadcasted([], [], [])
    else
      var x := running[0];
      var t := OnEvent(x.capture, e, env.profilerPresent);
      var rest := Broadcast(env, running[1..], e, now);
      if t.capture.Settled() then
        Broadcasted(rest.running, t.effects + rest.handled,
                    [Continue(env, x.opts, x.cb, x.startTime, t.capture, now)] + rest.continued)
      else
        Broadcasted([x.(capture := t.capture)] + rest.running, t.effects + rest.handled, rest.continued)
  }

  /** A chunk reaches every capture, in order, and settles none. */
  lemma {:induction false} BroadcastChunk(env: Env, running: seq<Running>, chunk: string, now: int)
    requires forall i :: 0 <= i < |running| ==> running[i].capture.Listening?
    ensures var r := Broadcast(env, running, Chunk(chunk), now);
            && r.handled == [] && r.continued == []
            && |r.running| == |running|
            && forall i :: 0 <= i < |running| ==>
                 r.running[i] == running[i].(capture := Listening(running[i].capture.chunks + [chunk]))
    decreases |running|
  {
    if |running| > 0 {
      BroadcastChunk(env, running[1..], chunk, now);
      var r := Broadcast(env, running, Chunk(chunk), now);
      var rest := Broadcast(env, running[1..], Chunk(chunk), now);
      assert r.running == [running[0].(capture := Listening(running[0].capture.chunks + [chunk]))] + rest.running;
    }
  }

  /**
   * When every capture belongs to callback `f`, so does every capture still
   * running afterwards, and every acknowledgment the event causes is a
   * failure reported to `f`.
   */
  lemma {:induction false} BroadcastOwned(env: Env, f: FunctionRef, running: seq<Running>, e: SnapshotEvent, now: int)
    requires forall i :: 0 <= i < |running| ==> running[i].capture.Listening?
    requires OwnedBy(f, running)
    ensures var r := Broadcast(env, running, e, now);
            && OwnedBy(f, r.running)
            && forall i :: 0 <= i < |r.continued| && r.continued[i].Ack? ==>
                 r.continued[i].to == f && !r.continued[i].reply.success
    decreases |running|
  {
    if |running| > 0 {
      BroadcastOwned(env, f, running[1..], e, now);
      var r := Broadcast(env, running, e, now);
      var rest := Broadcast(env, running[1..], e, now);
      var x := running[0];
      var t := OnEvent(x.capture, e, env.profilerPresent);
      if t.capture.Settled() {
        var c := Continue(env, x.opts, x.cb, x.startTime, t.capture, now);
        assert r.continued == [c] + rest.continued;
        forall i | 0 <= i < |r.continued| && r.continued[i].Ack?
          ensures r.continued[i].to == f && !r.continued[i].reply.success
        {
          if i > 0 {
            assert r.continued[i] == rest.continued[i - 1];
          }
        }
      } else {
        assert r.running == [x.(capture := t.capture)] + rest.running;
        forall i | 0 <= i < |r.running| ensures r.running[i].cb == Func(f) {
          if i > 0 {
            assert r.running[i] == rest.running[i - 1];
          }
        }
      }
    }
  }

  function Input(env: Env, d: Dumps, e: SnapshotEvent, now: int): (r: Step)
    requires Valid(d)
    ensures Valid(r.next)
    ensures r.next.waiting == d.waiting
  {
    var b := Broadcast(env, d.running, e, now);
    Step(d.(running := b.running), b.handled + b.continued)
  }

  function Next(env: Env, d: Dumps, e: Event): (r: Step)
    requires Valid(d)
    ensures Valid(r.next)
  {
    match e
    case HeapdumpCall(opts, cb) => OnHeapdump(env, d, opts, cb)
    case GraceElapsed(index, now) => Grace(env, d, index, now)
    case SnapshotInput(ev, now) => Input(env, d, ev, now)
  }

  function Run(env: Env, d: Dumps, events: seq<Event>): (r: Step)
    requires Valid(d)
    ensures Valid(r.next)
    decreases |events|
  {
    if |events| == 0 then Step(d, [])
    else
      var first := Next(env, d, events[0]);
      var rest := Run(env, first.next, events[1..]);
      Step(rest.next, first.effects + rest.effects)
  }

  function Schedules(effects: seq<Effect>): nat {
    if |effects| == 0 then 0
    else (if effects[0].Schedule? then 1 else 0) + Schedules(effects[1..])
  }

  lemma {:induction false} SchedulesAppend(a: seq<Effect>, b: seq<Effect>)
    ensures Schedules(a + b) == Schedules(a) + Schedules(b)
    decreases |a|
  {
    if |a| > 0 {
      assert (a + b)[1..] == a[1..] + b;
      SchedulesAppend(a[1..], b);
    } else {
      assert a + b == b;
    }
  }

  lemma {:induction false} CountsOfUnlistens(effects: seq<Effect>)
    requires forall i :: 0 <= i < |effects| ==> effects[i].Unlisten?
    ensures Sends(effects) == [] && Schedules(effects) == 0 && Outcomes(effects) == 0
    decreases |effects|
  {
    if |effects| > 0 {
      CountsOfUnlistens(effects[1..]);
    }
  }

  lemma {:induction false} SendsAtMostLength(effects: seq<Effect>)
    ensures |Sends(effects)| <= Outcomes(effects) <= |effects|
    decreases |effects|
  {
    if |effects| > 0 {
      SendsAtMostLength(effects[1..]);
    }
  }

  /** A step finishes requests only by sending or replying, at most one outcome each. */
  lemma StepAccounting(env: Env, d: Dumps, e: Event)
    requires Valid(d)
    ensures var r := Next(env, d, e);
            |Sends(r.effects)| + Pending(r.next) <= Schedules(r.effects) + Pending(d)
  {
    match e
    case HeapdumpCall(opts, cb) => CallAccounting(env, d, opts, cb);
    case GraceElapsed(index, now) => GraceAccounting(env, d, index, now);
    case SnapshotInput(ev, now) => InputAccounting(env, d, ev, now);
  }

  lemma CallAccounting(env: Env, d: Dumps, opts: JsValue, cb: JsValue)
    ensures var r := OnHeapdump(env, d, opts, cb);
            |Sends(r.effects)| + Pending(r.next) <= Schedules(r.effects) + Pending(d)
  {
    var r := OnHeapdump(env, d, opts, cb);
    SendsNothingIsEmpty(r.effects);
    if |r.effects| == 2 {
      assert r.effects[1..][1..] == [];
    }
  }

  lemma GraceAccounting(env: Env, d: Dumps, index: nat, now: int)
    ensures var r := Grace(env, d, index, now);
            |Sends(r.effects)| + Pending(r.next) <= Schedules(r.effects) + Pending(d)
  {
    var r := Grace(env, d, index, now);
    if index < |d.waiting| && env.profilerPresent {
      assert r.effects == [Listen(AddHeapSnapshotChunk), Listen(ReportHeapSnapshotProgress), Post(TakeHeapSnapshot)];
      assert Sends(r.effects) == [];
    } else if index < |d.waiting| {
      assert r.effects[1..] == [];
      SendsAtMostLength(r.effects);
    }
  }

  lemma InputAccounting(env: Env, d: Dumps, ev: SnapshotEvent, now: int)
    requires Valid(d)
    ensures var r := Input(env, d, ev, now);
            |Sends(r.effects)| + Pending(r.next) <= Schedules(r.effects) + Pending(d)
  {
    var b := Broadcast(env, d.running, ev, now);
    CountsOfUnlistens(b.handled);
    SendsAppend(b.handled, b.continued);
    SchedulesAppend(b.handled, b.continued);
    SendsAtMostLength(b.continued);
  }

  /**
   * Each accepted heapdump is delivered at most once: over any run, the
   * sends plus the requests still outstanding never outnumber the grace
   * timers scheduled (one per accepted call) plus the requests
   * outstanding at the start.
   */
  lemma {:induction false} RunSendsAtMostOncePerRequest(env: Env, d: Dumps, events: seq<Event>)
    requires Valid(d)
    ensures var r := Run(env, d, events);
            |Sends(r.effects)| + Pending(r.next) <= Schedules(r.effects) + Pending(d)
    decreases |events|
  {
    if |events| > 0 {
      var first := Next(env, d, events[0]);
      var rest := Run(env, first.next, events[1..]);
      StepAccounting(env, d, events[0]);
      RunSendsAtMostOncePerRequest(env, first.next, events[1..]);
      SendsAppend(first.effects, rest.effects);
      SchedulesAppend(first.effects, rest.effects);
    }
  }

  /** A trace without timers. */
  lemma {:induction false} NoSchedules(effects: seq<Effect>)
    requires forall i :: 0 <= i < |effects| ==> !effects[i].Schedule?
    ensures Schedules(effects) == 0
    decreases |effects|
  {
    if |effects| > 0 {
      NoSchedules(effects[1..]);
    }
  }

  /**
   * A step schedules a grace timer only when it admits a new request: the
   * timers scheduled equal the growth of the waiting list.
   */
  lemma StepSchedulesOnAdmission(env: Env, d: Dumps, e: Event)
    requires Valid(d)
    ensures var r := Next(env, d, e);
            Schedules(r.effects) == (if |r.next.waiting| > |d.waiting| then 1 else 0)
  {
    var r := Next(env, d, e);
    match e
    case HeapdumpCall(opts, cb) =>
      var a := NormalizeArgs(opts, cb);
      if env.profilerPresent && a.cb.Func? {
        var timer := [Schedule(HeapdumpGraceDelay)];
        assert r.effects == [Ack(a.cb.fn, Accepted)] + timer;
        assert Schedules(timer) == 1 + Schedules(timer[1..]);
        NoSchedules([Ack(a.cb.fn, Accepted)]);
        SchedulesAppend([Ack(a.cb.fn, Accepted)], timer);
      } else {
        NoSchedules(r.effects);
      }
    case GraceElapsed(index, now) =>
      NoSchedules(r.effects);
    case SnapshotInput(ev, now) =>
      var b := Broadcast(env, d.running, ev, now);
      CountsOfUnlistens(b.handled);
      NoSchedules(b.continued);
      SchedulesAppend(b.handled, b.continued);
  }

  /** The captures all belong to requests of callback `f`. */
  predicate OwnedBy(f: FunctionRef, running: seq<Running>) {
    forall i :: 0 <= i < |running| ==> running[i].cb == Func(f)
  }

  /** Inspector events reaching captures of one callback: at most one outcome per capture, replies only failures to it. */
  lemma {:induction false} InputsOutcomes(env: Env, d: Dumps, f: FunctionRef, inputs: seq<Event>)
    requires Valid(d) && d.waiting == [] && OwnedBy(f, d.running)
    requires forall i :: 0 <= i < |inputs| ==> inputs[i].SnapshotInput?
    ensures var r := Run(env, d, inputs);
            && Outcomes(r.effects) + |r.next.running| <= |d.running|
            && LateFailuresTo(f, r.effects)
    decreases |inputs|
  {
    if |inputs| > 0 {
      var first := Next(env, d, inputs[0]);
      var b := Broadcast(env, d.running, inputs[0].event, inputs[0].now);
      assert first.effects == b.handled + b.continued;
      CountsOfUnlistens(b.handled);
      SendsAtMostLength(b.continued);
      OutcomesAppend(b.handled, b.continued);
      BroadcastOwned(env, f, d.running, inputs[0].event, inputs[0].now);
      InputsOutcomes(env, first.next, f, inputs[1..]);
      var rest := Run(env, first.next, inputs[1..]);
      OutcomesAppend(first.effects, rest.effects);
      var all := first.effects + rest.effects;
      forall i | 0 <= i < |all| && all[i].Ack?
        ensures all[i].to == f && !all[i].reply.success
      {
        if i < |first.effects| {
          if i >= |b.handled| {
            assert all[i] == b.continued[i - |b.handled|];
          }
        } else {
          assert all[i] == rest.effects[i - |first.effects|];
        }
      }
    }
  }

  /** What an accepted request does before its capture hears any event, after its acknowledgment. */
  const Preparation: seq<Effect> :=
    [Schedule(HeapdumpGraceDelay), Listen(AddHeapSnapshotChunk), Listen(ReportHeapSnapshotProgress), Post(TakeHeapSnapshot)]

  lemma PreparationHasNoOutcome()
    ensures Outcomes(Preparation) == 0
    ensures forall i :: 0 <= i < |Preparation| ==> !Preparation[i].Ack?
  {
    var p := Preparation;
    assert p[1..][1..][1..][1..] == [];
    assert Outcomes(p[1..][1..][1..]) == 0;
    assert Outcomes(p[1..][1..]) == 0;
    assert Outcomes(p[1..]) == 0;
  }

  lemma RunTwoThen(env: Env, d: Dumps, a: Event, b: Event, rest: seq<Event>)
    requires Valid(d)
    ensures var e1 := Next(env, d, a);
            var e2 := Next(env, e1.next, b);
            var e3 := Run(env, e2.next, rest);
            Run(env, d, [a, b] + rest) == Step(e3.next, e1.effects + (e2.effects + e3.effects))
  {
    var events := [a, b] + rest;
    assert events[0] == a;
    assert events[1..] == [b] + rest;
    assert events[1..][0] == b;
    assert events[1..][1..] == rest;
  }

  /** An accepted request and its grace timer: acknowledgment, timer, subscriptions, command. */
  lemma AcceptThenGrace(env: Env, opts: JsValue, f: nat, t0: int)
    requires env.profilerPresent
    ensures var cb := Func(Supplied(f));
            var e1 := OnHeapdump(env, NoDumps, opts, cb);
            var e2 := Grace(env, e1.next, 0, t0);
            && e1.effects == [Ack(Supplied(f), Accepted), Schedule(HeapdumpGraceDelay)]
            && e2.next == Dumps([], [Running(NormalizeArgs(opts, cb).opts, cb, t0, Listening([]))])
            && e2.effects == [Listen(AddHeapSnapshotChunk), Listen(ReportHeapSnapshotProgress), Post(TakeHeapSnapshot)]
  {
  }

  /** The first two steps of a request: its acknowledgment, then the grace timer starting the capture. */
  lemma {:induction false} OneRequestPrefix(env: Env, opts: JsValue, f: nat, t0: int, inputs: seq<Event>)
    requires env.profilerPresent
    ensures var cb := Func(Supplied(f));
            var d := Dumps([], [Running(NormalizeArgs(opts, cb).opts, cb, t0, Listening([]))]);
            Run(env, NoDumps, [HeapdumpCall(opts, cb), GraceElapsed(0, t0)] + inputs).effects
              == [Ack(Supplied(f), Accepted)] + (Preparation + Run(env, d, inputs).effects)
  {
    var cb := Func(Supplied(f));
    var d := Dumps([], [Running(NormalizeArgs(opts, cb).opts, cb, t0, Listening([]))]);
    AcceptThenGrace(env, opts, f, t0);
    RunTwoThen(env, NoDumps, HeapdumpCall(opts, cb), GraceElapsed(0, t0), inputs);
    Regroup(Ack(Supplied(f), Accepted), Schedule(HeapdumpGraceDelay), Listen(AddHeapSnapshotChunk),
            Listen(ReportHeapSnapshotProgress), Post(TakeHeapSnapshot), Run(env, d, inputs).effects);
  }

  lemma Regroup<T>(a: T, b: T, c: T, d: T, e: T, xs: seq<T>)
    ensures [a, b] + ([c, d, e] + xs) == [a] + ([b, c, d, e] + xs)
  {
  }

  /**
   * The life of one heapdump request: the callback is acknowledged with
   * success first; afterwards it hears at most one more thing, always a
   * failure, and the transport receives at most one snapshot, never both.
   */
  lemma OneRequestLifecycle(env: Env, opts: JsValue, f: nat, t0: int, inputs: seq<Event>)
    requires env.profilerPresent
    requires forall i :: 0 <= i < |inputs| ==> inputs[i].SnapshotInput?
    ensures var r := Run(env, NoDumps, [HeapdumpCall(opts, Func(Supplied(f))), GraceElapsed(0, t0)] + inputs);
            && |r.effects| >= 1
            && r.effects[0] == Ack(Supplied(f), Accepted)
            && Outcomes(r.effects[1..]) <= 1
            && LateFailuresTo(Supplied(f), r.effects[1..])
  {
    var cb := Func(Supplied(f));
    var d := Dumps([], [Running(NormalizeArgs(opts, cb).opts, cb, t0, Listening([]))]);
    var e3 := Run(env, d, inputs).effects;
    OneRequestPrefix(env, opts, f, t0, inputs);
    InputsOutcomes(env, d, Supplied(f), inputs);
    assert ([Ack(Supplied(f), Accepted)] + (Preparation + e3))[1..] == Preparation + e3;
    PreparedOutcomes(Supplied(f), e3);
  }

  /** Preparing a capture adds no outcome and no acknowledgment to what its events cause. */
  lemma PreparedOutcomes(f: FunctionRef, later: seq<Effect>)
    requires Outcomes(later) <= 1 && LateFailuresTo(f, later)
    ensures Outcomes(Preparation + later) <= 1 && LateFailuresTo(f, Preparation + later)
  {
    PreparationHasNoOutcome();
    OutcomesAppend(Preparation, later);
    var all := Preparation + later;
    forall i | 0 <= i < |all| && all[i].Ack?
      ensures all[i].to == f && !all[i].reply.success
    {
      if i >= |Preparation| {
        assert all[i] == later[i - |Preparation|];
      }
    }
  }

  /** A chunk for the only running capture is appended to its buffer. */
  lemma ChunkToOnlyCapture(env: Env, x: Running, chunk: string, now: int)
    requires x.capture.Listening?
    ensures Input(env, Dumps([], [x]), Chunk(chunk), now)
              == Step(Dumps([], [x.(capture := Listening(x.capture.chunks + [chunk]))]), [])
  {
    BroadcastChunk(env, [x], chunk, now);
  }

  /** A finishing progress event for the only running capture: it unsubscribes, then sends the joined chunks. */
  lemma FinishOnlyCapture(env: Env, x: Running, now: int)
    requires env.profilerPresent && env.transportPresent
    requires x.capture.Listening? && x.opts.Obj?
    ensures Input(env, Dumps([], [x]), Progress(Bool(true)), now)
              == Step(NoDumps, [Unlisten(AddHeapSnapshotChunk), Unlisten(ReportHeapSnapshotProgress),
                                Send(ProfilingsChannel,
                                     HeapdumpData(Join(x.capture.chunks), x.startTime,
                                                  Some(Origin(ReadOption(x.opts, "initiated").value)),
                                                  now - x.startTime))])
  {
    var t := OnEvent(x.capture, Progress(Bool(true)), true);
    assert t.capture == Resolved(Join(x.capture.chunks));
    var rest := Broadcast(env, [], Progress(Bool(true)), now);
    assert rest == Broadcasted([], [], []);
    assert [x][1..] == [];
    var b := Broadcast(env, [x], Progress(Bool(true)), now);
    assert b == Broadcasted(rest.running, t.effects + rest.handled,
                            [Continue(env, x.opts, x.cb, x.startTime, t.capture, now)] + rest.continued);
    assert t.effects + [] == t.effects;
  }

  /**
   * A heapdump whose snapshot arrives in two chunks: one send with the
   * chunks joined in arrival order, stamped with the time the grace timer
   * fired and the time elapsed since.
   */
  lemma SnapshotDelivered(env: Env, origin: string, f: nat, a: string, b: string, t0: int, t1: int, t2: int, t3: int)
    requires env.profilerPresent && env.transportPresent
    ensures var opts := Obj(map["initiated" := Str(origin)]);
            var d1 := OnHeapdump(env, NoDumps, opts, Func(Supplied(f)));
            var d2 := Grace(env, d1.next, 0, t0);
            var d3 := Input(env, d2.next, Chunk(a), t1);
            var d4 := Input(env, d3.next, Chunk(b), t2);
            var d5 := Input(env, d4.next, Progress(Bool(true)), t3);
            && d5.next == NoDumps
            && d5.effects == [Unlisten(AddHeapSnapshotChunk), Unlisten(ReportHeapSnapshotProgress),
                              Send(ProfilingsChannel, HeapdumpData(a + b, t0, Some(origin), t3 - t0))]
  {
    var opts := Obj(map["initiated" := Str(origin)]);
    AcceptThenGrace(env, opts, f, t0);
    TwoChunksToOnlyCapture(env, Running(opts, Func(Supplied(f)), t0, Listening([])), a, b, t1, t2);
    CaptureFinished(env, Running(opts, Func(Supplied(f)), t0, Listening([a, b])), a, b, origin, t3);
  }

  /** The last step of the above: the finishing event sends both chunks joined. */
  lemma CaptureFinished(env: Env, x: Running, a: string, b: string, origin: string, now: int)
    requires env.profilerPresent && env.transportPresent
    requires x.capture == Listening([a, b])
    requires x.opts.Obj? && ReadOption(x.opts, "initiated") == Some(Str(origin))
    ensures var r := Input(env, Dumps([], [x]), Progress(Bool(true)), now);
            && r.next == NoDumps
            && r.effects == [Unlisten(AddHeapSnapshotChunk), Unlisten(ReportHeapSnapshotProgress),
                             Send(ProfilingsChannel,
                                  HeapdumpData(a + b, x.startTime, Some(origin), now - x.startTime))]
  {
    FinishOnlyCapture(env, x, now);
    JoinTwo(a, b);
  }

  /** Two chunks for the only running capture, which has buffered nothing yet. */
  lemma TwoChunksToOnlyCapture(env: Env, x: Running, a: string, b: string, t1: int, t2: int)
    requires x.capture == Listening([])
    ensures var d3 := Input(env, Dumps([], [x]), Chunk(a), t1);
            var d4 := Input(env, d3.next, Chunk(b), t2);
            && d3.effects == [] && d4.effects == []
            && d4.next == Dumps([], [x.(capture := Listening([a, b]))])
  {
    ChunkToOnlyCapture(env, x, a, t1);
    var x1 := x.(capture := Listening([a]));
    assert x.(capture := Listening(x.capture.chunks + [a])) == x1;
    ChunkToOnlyCapture(env, x1, b, t2);
    assert x1.(capture := Listening(x1.capture.chunks + [b])) == x.(capture := Listening([a, b]));
  }

  /**
   * Captures that run at the same time all hear every chunk: a chunk is
   * appended to each running capture's buffer.
   */
  lemma ConcurrentCapturesShareChunks(env: Env, d: Dumps, chunk: string, now: int)
    requires Valid(d)
    ensures var r := Input(env, d, Chunk(chunk), now);
            && r.effects == []
            && |r.next.running| == |d.running|
            && forall i :: 0 <= i < |d.running| ==>
                 r.next.running[i].capture.chunks == d.running[i].capture.chunks + [chunk]
  {
    BroadcastChunk(env, d.running, chunk, now);
  }
}

=== FILE: js.dfy ===
/**
 * The JavaScript values the profiler's action handlers receive, and the
 * three pieces of JavaScript semantics their bodies rely on: `typeof`,
 * property reads on the options argument, and `parseInt(x, 10)` on the
 * `timeout` option.
 */
module Js {
  import opened Wrappers

  /** Identity of a JavaScript function value. */
  datatype FunctionRef =
    | Supplied(id: nat)   // a callback handed in by whoever invoked the action
    | TimerNoOp           // the `_ => { return }` callback the auto-stop timer hands to a stop handler

  /**
   * A JavaScript value. Numbers are restricted to integers; objects are
   * plain property maps (arrays, prototypes and getters are not modelled).
   */
  datatype JsValue =
    | Undefined
    | Null
    | Bool(b: bool)
    | Num(n: int)
    | Str(s: string)
    | Obj(props: map<string, JsValue>)
    | Func(fn: FunctionRef)

  /** The `{}` literal the handlers substitute for unusable options. */
  const EmptyObject: JsValue := Obj(map[])

  /** JavaScript's `typeof`, including its historical `typeof null === 'object'`. */
  function TypeOf(v: JsValue): string {
    match v
    case Undefined => "undefined"
    case Null => "object"
    case Bool(_) => "boolean"
    case Num(_) => "number"
    case Str(_) => "string"
    case Obj(_) => "object"
    case Func(_) => "function"
  }

  /** `opts[key]` on a plain options object: `undefined` when the property is absent. */
  function Prop(props: map<string, JsValue>, key: string): JsValue {
    if key in props then props[key] else Undefined
  }

  /**
   * Reads the option `key` of an options value. None stands for the
   * TypeError JavaScript throws when a property of `null` or `undefined` is
   * read. The option names the handlers read (`initiated`, `timeout`,
   * `samplingInterval`) are not properties of any primitive or function, so
   * those read as `undefined`.
   */
  function ReadOption(o: JsValue, key: string): (r: Option<JsValue>)
    ensures r.None? <==> (o.Null? || o.Undefined?)
    ensures o.Obj? && key in o.props ==> r == Some(o.props[key])
    ensures o.Obj? && key !in o.props ==> r == Some(Undefined)
  {
    match o
    case Undefined => None
    case Null => None
    case Obj(props) => Some(Prop(props, key))
    case _ => Some(Undefined)
  }

  /** The `(opts, cb)` pair a handler works with after normalisation. */
  datatype Args = Args(opts: JsValue, cb: JsValue)

  /**
   * The argument normalisation at the top of every start handler and of
   * the heapdump handler: a handler invoked with only a callback sees that
   * callback as `opts`, so when `cb` is not a function the first argument
   * becomes the callback and the options become `{}`; options whose
   * `typeof` is not 'object' are then replaced by `{}`.
   */
  function NormalizeArgs(opts: JsValue, cb: JsValue): (r: Args)
    ensures TypeOf(r.opts) == "object"
    ensures cb.Func? ==> r.cb == cb
    ensures !cb.Func? ==> r.cb == opts && r.opts == EmptyObject
    ensures cb.Func? && (opts.Obj? || opts.Null?) ==> r.opts == opts
    ensures cb.Func? && !(opts.Obj? || opts.Null?) ==> r.opts == EmptyObject
  {
    var first := if TypeOf(cb) != "function" then Args(EmptyObject, opts) else Args(opts, cb);
    if TypeOf(first.opts) != "object" then Args(EmptyObject, first.cb) else first
  }

  /** Normalised arguments whose callback is a function are left as they are. */
  lemma NormalizeIdempotent(opts: JsValue, cb: JsValue)
    ensures var a := NormalizeArgs(opts, cb);
            a.cb.Func? ==> NormalizeArgs(a.opts, a.cb) == a
  {
  }

  /** Invoking a handler with only a callback is the same as passing `{}` as options. */
  lemma CallbackOnlyIsEmptyOptions(f: FunctionRef)
    ensures NormalizeArgs(Func(f), Undefined) == NormalizeArgs(EmptyObject, Func(f))
    ensures NormalizeArgs(Func(f), Undefined) == Args(EmptyObject, Func(f))
  {
  }

  // ---------------------------------------------------------------------
  // parseInt(x, 10)
  // ---------------------------------------------------------------------

  /** The characters `parseInt` skips before the number: JavaScript's WhiteSpace and LineTerminator. */
  predicate IsStrWhiteSpace(c: char) {
    || c == '\t' || c == '\n' || c == '\U{000B}' || c == '\U{000C}' || c == '\r'
    || c == ' ' || c == '\U{00A0}' || c == '\U{1680}'
    || ('\U{2000}' <= c <= '\U{200A}')
    || c == '\U{2028}' || c == '\U{2029}' || c == '\U{202F}' || c == '\U{205F}'
    || c == '\U{3000}' || c == '\U{FEFF}'
  }

  predicate IsDigit(c: char) {
    '0' <= c <= '9'
  }

  predicate AllDigits(s: string) {
    forall i :: 0 <= i < |s| ==> IsDigit(s[i])
  }

  function DigitValue(c: char): nat
    requires IsDigit(c)
  {
    (c - '0') as nat
  }

  function DigitChar(d: nat): (c: char)
    requires d < 10
    ensures IsDigit(c) && DigitValue(c) == d
  {
    ['0', '1', '2', '3', '4', '5', '6', '7', '8', '9'][d]
  }

  /** `s` without its leading white space. */
  function TrimStart(s: string): (r: string)
    ensures |r| <= |s| && r == s[|s| - |r|..]
    ensures |r| > 0 ==> !IsStrWhiteSpace(r[0])
  {
    if |s| > 0 && IsStrWhiteSpace(s[0]) then TrimStart(s[1..]) else s
  }

  /** The longest prefix of `s` made of decimal digits. */
  function LeadingDigits(s: string): (r: string)
    ensures |r| <= |s| && r == s[..|r|]
    ensures AllDigits(r)
    ensures |r| < |s| ==> !IsDigit(s[|r|])
  {
    if |s| > 0 && IsDigit(s[0]) then [s[0]] + LeadingDigits(s[1..]) else ""
  }

  /** The value of a string of decimal digits, most significant first. */
  function DigitsValue(ds: string): nat
    requires AllDigits(ds)
  {
    if |ds| == 0 then 0 else DigitsValue(ds[..|ds| - 1]) * 10 + DigitValue(ds[|ds| - 1])
  }

  /**
   * `parseInt(s, 10)` on a string: leading white space is skipped, one
   * optional sign is read, then the longest run of decimal digits; None
   * (NaN) when that run is empty.
   */
  function ParseInt10(s: string): Option<int> {
    ParseSigned(TrimStart(s))
  }

  /** `parseInt` after the white space: one optional sign, then the digits. */
  function ParseSigned(t: string): Option<int> {
    if |t| > 0 && t[0] == '-' then Negate(ParseMagnitude(t[1..]))
    else if |t| > 0 && t[0] == '+' then ParseMagnitude(t[1..])
    else ParseMagnitude(t)
  }

  function Negate(m: Option<int>): Option<int> {
    if m.None? then None else Some(-m.value)
  }

  /** The value of the leading run of digits, None when there is none. */
  function ParseMagnitude(u: string): Option<int> {
    var ds := LeadingDigits(u);
    if |ds| == 0 then None else Some(DigitsValue(ds))
  }

  /**
   * `parseInt(v, 10)` for the `timeout` option: `parseInt` converts its
   * argument to a string first. An integer number prints in decimal;
   * `undefined`, `null`, booleans, plain objects and functions print as
   * text that does not start with a digit, so they parse to NaN.
   */
  function ParseTimeout(v: JsValue): (r: Option<int>)
    ensures v.Num? ==> r == Some(v.n)
    ensures !(v.Num? || v.Str?) ==> r.None?
  {
    match v
    case Num(n) => Some(n)
    case Str(s) => ParseInt10(s)
    case _ => None
  }

  /** The decimal spelling of a natural number, as `String(n)` prints it. */
  function Decimal(n: nat): (s: string)
    ensures |s| > 0 && AllDigits(s)
    decreases n
  {
    (if n < 10 then "" else Decimal(n / 10)) + [DigitChar(n % 10)]
  }

  lemma {:induction false} DecimalValue(n: nat)
    ensures DigitsValue(Decimal(n)) == n
    decreases n
  {
    var s := Decimal(n);
    assert s[..|s| - 1] == (if n < 10 then "" else Decimal(n / 10));
    if n >= 10 {
      DecimalValue(n / 10);
    }
  }

  lemma {:induction false} LeadingDigitsOfDigits(ds: string, rest: string)
    requires AllDigits(ds)
    requires |rest| == 0 || !IsDigit(rest[0])
    ensures LeadingDigits(ds + rest) == ds
    decreases |ds|
  {
    if |ds| > 0 {
      assert (ds + rest)[1..] == ds[1..] + rest;
      LeadingDigitsOfDigits(ds[1..], rest);
    }
  }

  /** Digits followed by text that does not start with a digit: the digits are the magnitude. */
  lemma {:induction false} MagnitudeOfDigits(ds: string, rest: string)
    requires |ds| > 0 && AllDigits(ds)
    requires |rest| == 0 || !IsDigit(rest[0])
    ensures ParseMagnitude(ds + rest) == Some(DigitsValue(ds) as int)
  {
    LeadingDigitsOfDigits(ds, rest);
  }

  /** A decimal spelling followed by text that does not start with a digit has that magnitude. */
  lemma MagnitudeOfDecimal(n: nat, rest: string)
    requires |rest| == 0 || !IsDigit(rest[0])
    ensures ParseMagnitude(Decimal(n) + rest) == Some(n)
  {
    MagnitudeOfDigits(Decimal(n), rest);
    DecimalValue(n);
  }

  /** Nothing is trimmed before a leading digit, and no sign is read. */
  lemma UnsignedDigits(ds: string, rest: string)
    requires |ds| > 0 && IsDigit(ds[0])
    ensures ParseInt10(ds + rest) == ParseMagnitude(ds + rest)
  {
    var t := ds + rest;
    assert t[0] == ds[0];
    DigitIsNotSpaceOrSign(t[0]);
    assert TrimStart(t) == t;
  }

  lemma DigitIsNotSpaceOrSign(c: char)
    requires IsDigit(c)
    ensures !IsStrWhiteSpace(c) && c != '-' && c != '+'
  {
  }

  /** Nothing is trimmed before a minus sign, and the magnitude after it is negated. */
  lemma NegatedMagnitude(u: string)
    ensures ParseInt10(['-'] + u) == Negate(ParseMagnitude(u))
  {
    var t := ['-'] + u;
    assert t[0] == '-' && t[1..] == u;
    assert TrimStart(t) == t;
  }

  /**
   * A timeout written as decimal digits, optionally followed by a unit or
   * other text that does not start with a digit, parses to the digits'
   * value: the digits are read and the rest is ignored.
   */
  lemma {:induction false} ParseDigitsTimeout(ds: string, rest: string)
    requires |ds| > 0 && AllDigits(ds)
    requires |rest| == 0 || !IsDigit(rest[0])
    ensures ParseInt10(ds + rest) == Some(DigitsValue(ds) as int)
  {
    UnsignedDigits(ds, rest);
    MagnitudeOfDigits(ds, rest);
  }

  /**
   * A timeout written as a decimal string, optionally followed by a unit
   * or other text that does not start with a digit, parses to that number
   * of milliseconds.
   */
  lemma {:induction false} ParseDecimalTimeout(n: nat, rest: string)
    requires |rest| == 0 || !IsDigit(rest[0])
    ensures ParseInt10(Decimal(n) + rest) == Some(n)
  {
    UnsignedDigits(Decimal(n), rest);
    MagnitudeOfDecimal(n, rest);
  }

  /** The same with a leading minus sign: the negated number. */
  lemma ParseNegativeDecimalTimeout(n: nat, rest: string)
    requires |rest| == 0 || !IsDigit(rest[0])
    ensures ParseInt10(['-'] + (Decimal(n) + rest)) == Some(-(n as int))
  {
    NegatedMagnitude(Decimal(n) + rest);
    MagnitudeOfDecimal(n, rest);
  }

  /** Text with no digit after its white space and sign is NaN, so no timer. */
  lemma ParseNoDigits(s: string)
    requires forall i :: 0 <= i < |s| ==> !IsDigit(s[i])
    ensures ParseInt10(s).None?
  {
    var t := TrimStart(s);
    if |t| > 0 && (t[0] == '-' || t[0] == '+') {
      assert t[1..] == s[|s| - |t| + 1..];
      assert |t[1..]| > 0 ==> t[1..][0] == s[|s| - |t| + 1];
    } else {
      assert |t| > 0 ==> t[0] == s[|s| - |t|];
    }
  }
}

=== FILE: profiler.dfy ===
/**
 * The whole inspector profiler: the profile slot state machine and the
 * heapdump requests side by side, driven by one interleaved sequence of
 * events. The two parts share the inspector session and the transport but
 * no state: a heapdump never reads or writes the profile slot.
 */
module InspectorProfiler {
  import opened Effects
  import Coordinator
  import Heapdump

  datatype System = System(sessions: Coordinator.State, dumps: Heapdump.Dumps)

  /** The profiler right after `init`. */
  const Initial: System := System(Coordinator.Initial, Heapdump.NoDumps)

  predicate Valid(s: System) {
    Heapdump.Valid(s.dumps)
  }

  /** An input of either part. */
  datatype Event =
    | Session(session: Coordinator.Event)
    | Dump(dump: Heapdump.Event)

  datatype Step = Step(next: System, effects: seq<Effect>)

  function Next(env: Env, s: System, e: Event): (r: Step)
    requires Valid(s)
    ensures Valid(r.next)
  {
    match e
    case Session(se) =>
      var r := Coordinator.Next(env, s.sessions, se);
      Step(s.(sessions := r.next), r.effects)
    case Dump(de) =>
      var r := Heapdump.Next(env, s.dumps, de);
      Step(s.(dumps := r.next), r.effects)
  }

  function Run(env: Env, s: System, events: seq<Event>): (r: Step)
    requires Valid(s)
    ensures Valid(r.next)
    decreases |events|
  {
    if |events| == 0 then Step(s, [])
    else
      var first := Next(env, s, events[0]);
      var rest := Run(env, first.next, events[1..]);
      Step(rest.next, first.effects + rest.effects)
  }

  /** The session events of an interleaving, in order. */
  function SessionEvents(events: seq<Event>): (r: seq<Coordinator.Event>)
    ensures |r| <= |events|
  {
    if |events| == 0 then []
    else (if events[0].Session? then [events[0].session] else []) + SessionEvents(events[1..])
  }

  /** The heapdump events of an interleaving, in order. */
  function DumpEvents(events: seq<Event>): (r: seq<Heapdump.Event>)
    ensures |r| <= |events|
  {
    if |events| == 0 then []
    else (if events[0].Dump? then [events[0].dump] else []) + DumpEvents(events[1..])
  }

  /**
   * Independence of the two parts: after any interleaving, the profile
   * slot and its outstanding callbacks and timers are what the session
   * events alone make of them, and the heapdump requests are what the
   * heapdump events alone make of them.
   */
  lemma {:induction false} RunProjects(env: Env, s: System, events: seq<Event>)
    requires Valid(s)
    ensures Run(env, s, events).next
              == System(Coordinator.Run(env, s.sessions, SessionEvents(events)).next,
                        Heapdump.Run(env, s.dumps, DumpEvents(events)).next)
    decreases |events|
  {
    if |events| > 0 {
      var first := Next(env, s, events[0]);
      RunProjects(env, first.next, events[1..]);
      match events[0]
      case Session(se) =>
        assert SessionEvents(events) == [se] + SessionEvents(events[1..]);
        assert DumpEvents(events) == DumpEvents(events[1..]);
        assert ([se] + SessionEvents(events[1..]))[1..] == SessionEvents(events[1..]);
      case Dump(de) =>
        assert DumpEvents(events) == [de] + DumpEvents(events[1..]);
        assert SessionEvents(events) == SessionEvents(events[1..]);
        assert ([de] + DumpEvents(events[1..]))[1..] == DumpEvents(events[1..]);
    }
  }

  /** The transport receives as many payloads as the two parts, run separately, send between them. */
  lemma {:induction false} RunSendsAddUp(env: Env, s: System, events: seq<Event>)
    requires Valid(s)
    ensures |Sends(Run(env, s, events).effects)|
              == |Sends(Coordinator.Run(env, s.sessions, SessionEvents(events)).effects)|
                 + |Sends(Heapdump.Run(env, s.dumps, DumpEvents(events)).effects)|
    decreases |events|
  {
    if |events| > 0 {
      var first := Next(env, s, events[0]);
      var rest := Run(env, first.next, events[1..]);
      RunSendsAddUp(env, first.next, events[1..]);
      SendsAppend(first.effects, rest.effects);
      match events[0]
      case Session(se) =>
        var step := Coordinator.Next(env, s.sessions, se);
        var tail := Coordinator.Run(env, step.next, SessionEvents(events[1..]));
        assert SessionEvents(events) == [se] + SessionEvents(events[1..]);
        assert DumpEvents(events) == DumpEvents(events[1..]);
        assert ([se] + SessionEvents(events[1..]))[1..] == SessionEvents(events[1..]);
        assert Coordinator.Run(env, s.sessions, SessionEvents(events)) == Coordinator.Step(tail.next, step.effects + tail.effects);
        SendsAppend(step.effects, tail.effects);
      case Dump(de) =>
        var step := Heapdump.Next(env, s.dumps, de);
        var tail := Heapdump.Run(env, step.next, DumpEvents(events[1..]));
        assert DumpEvents(events) == [de] + DumpEvents(events[1..]);
        assert SessionEvents(events) == SessionEvents(events[1..]);
        assert ([de] + DumpEvents(events[1..]))[1..] == DumpEvents(events[1..]);
        assert Heapdump.Run(env, s.dumps, DumpEvents(events)) == Heapdump.Step(tail.next, step.effects + tail.effects);
        SendsAppend(step.effects, tail.effects);
    }
  }

  /** A profiling session or a heapdump request that has started and not yet finished. */
  function Open(s: System): nat {
    Coordinator.Occupied(s.sessions) + Heapdump.Pending(s.dumps)
  }

  /**
   * How many events of an interleaving admitted work: a start that filled
   * the empty slot, or a heapdump call that was acknowledged and queued.
   */
  function Admissions(env: Env, s: System, events: seq<Event>): nat
    requires Valid(s)
    decreases |events|
  {
    if |events| == 0 then 0
    else
      var n := Next(env, s, events[0]).next;
      (if s.sessions.slot.None? && n.sessions.slot.Some? then 1 else 0)
      + (if |n.dumps.waiting| > |s.dumps.waiting| then 1 else 0)
      + Admissions(env, n, events[1..])
  }

  /** One event sends at most what it closes, and opens at most what it admits. */
  lemma StepDeliversAtMostOnce(env: Env, s: System, e: Event)
    requires Valid(s)
    ensures var r := Next(env, s, e);
            |Sends(r.effects)| + Open(r.next)
              <= Open(s) + (if s.sessions.slot.None? && r.next.sessions.slot.Some? then 1 else 0)
                 + (if |r.next.dumps.waiting| > |s.dumps.waiting| then 1 else 0)
  {
    match e
    case Session(se) =>
      Coordinator.StepSendsClosedSession(env, s.sessions, se);
    case Dump(de) =>
      Heapdump.StepAccounting(env, s.dumps, de);
      Heapdump.StepSchedulesOnAdmission(env, s.dumps, de);
  }

  /**
   * At-most-once delivery for the whole profiler: over any interleaving,
   * the payloads sent plus the sessions and heapdump requests still open
   * never exceed the work admitted plus what was open at the start. No
   * session and no heapdump is ever delivered twice.
   */
  lemma {:induction false} RunDeliversAtMostOnce(env: Env, s: System, events: seq<Event>)
    requires Valid(s)
    ensures var r := Run(env, s, events);
            |Sends(r.effects)| + Open(r.next) <= Admissions(env, s, events) + Open(s)
    decreases |events|
  {
    if |events| > 0 {
      var first := Next(env, s, events[0]);
      var rest := Run(env, first.next, events[1..]);
      StepDeliversAtMostOnce(env, s, events[0]);
      RunDeliversAtMostOnce(env, first.next, events[1..]);
      SendsAppend(first.effects, rest.effects);
    }
  }
}

=== FILE: snapshot.dfy ===
/**
 * The heap-snapshot chunk reassembler `takeSnapshot`: one call subscribes
 * to the inspector's chunk and progress events, posts the snapshot
 * command, collects the chunks in arrival order, and on the first
 * progress event whose `finished` is `true` unsubscribes and resolves
 * with the chunks joined with no separator. A missing profiler rejects.
 */
module Snapshot {
  import opened Wrappers
  import opened Js
  import opened Effects

  /** One `takeSnapshot()` call: its promise together with its private chunk buffer. */
  datatype Capture =
    | Idle                          // the promise executor has not run
    | Listening(chunks: seq<string>) // both handlers registered, command posted
    | Resolved(data: string)
    | Rejected(error: ErrorValue)
  {
    predicate Settled() {
      Resolved? || Rejected?
    }
  }

  /** The two inspector events the capture listens to. */
  datatype SnapshotEvent =
    | Chunk(chunk: string)          // `HeapProfiler.addHeapSnapshotChunk`
    | Progress(finished: JsValue)   // `HeapProfiler.reportHeapSnapshotProgress`

  datatype Transition = Transition(capture: Capture, effects: seq<Effect>)

  /** `chunks.join('')` */
  function Join(chunks: seq<string>): string {
    if |chunks| == 0 then "" else chunks[0] + Join(chunks[1..])
  }

  lemma {:induction false} JoinAppend(a: seq<string>, b: seq<string>)
    ensures Join(a + b) == Join(a) + Join(b)
    decreases |a|
  {
    if |a| == 0 {
      assert a + b == b;
    } else {
      assert (a + b)[1..] == a[1..] + b;
      JoinAppend(a[1..], b);
    }
  }

  /** Joining keeps every chunk, whole and in place. */
  lemma {:induction false} JoinKeepsChunk(chunks: seq<string>, i: nat)
    requires i < |chunks|
    ensures Join(chunks) == Join(chunks[..i]) + (chunks[i] + Join(chunks[i + 1..]))
  {
    var tail := chunks[i..];
    assert chunks == chunks[..i] + tail;
    JoinAppend(chunks[..i], tail);
    assert tail[0] == chunks[i];
    assert tail[1..] == chunks[i + 1..];
  }

  lemma JoinTwo(a: string, b: string)
    ensures Join([a, b]) == a + b
  {
    assert [a, b][1..] == [b];
    assert Join([b]) == b + "";
    assert b + "" == b;
  }

  /** Every command is posted only after both listeners are registered. */
  predicate ListenersBeforeCommand(effects: seq<Effect>) {
    forall i :: 0 <= i < |effects| && effects[i].Post? ==>
      Listen(AddHeapSnapshotChunk) in effects[..i] && Listen(ReportHeapSnapshotProgress) in effects[..i]
  }

  /** The promise executor of `takeSnapshot()`. */
  function Begin(profilerPresent: bool): (t: Transition)
    ensures !profilerPresent ==> t == Transition(Rejected(Error(NotAvailableMessage)), [])
    ensures profilerPresent ==> t.capture == Listening([])
    ensures ListenersBeforeCommand(t.effects)
    ensures profilerPresent ==> Post(TakeHeapSnapshot) in t.effects
  {
    if !profilerPresent then Transition(Rejected(Error(NotAvailableMessage)), [])
    else
      var effects := [Listen(AddHeapSnapshotChunk), Listen(ReportHeapSnapshotProgress), Post(TakeHeapSnapshot)];
      assert effects[..2] == [Listen(AddHeapSnapshotChunk), Listen(ReportHeapSnapshotProgress)];
      Transition(Listening([]), effects)
  }

  /** A progress event that completes the capture. */
  predicate IsFinish(e: SnapshotEvent) {
    e.Progress? && e.finished == Bool(true)
  }

  /**
   * One inspector event delivered to the capture's handlers. The progress
   * handler checks for the profiler before it looks at `finished`; after
   * settling, the handlers are gone (resolve) or only re-settle a settled
   * promise (reject), so nothing changes.
   */
  function OnEvent(c: Capture, e: SnapshotEvent, profilerPresent: bool): (t: Transition)
    ensures !c.Listening? ==> t == Transition(c, [])
    ensures c.Listening? && e.Chunk? ==> t == Transition(Listening(c.chunks + [e.chunk]), [])
    ensures c.Listening? && e.Progress? && !profilerPresent ==>
              t == Transition(Rejected(Error(NotAvailableMessage)), [])
    ensures c.Listening? && e.Progress? && profilerPresent && !IsFinish(e) ==> t == Transition(c, [])
    ensures c.Listening? && profilerPresent && IsFinish(e) ==>
              && t.capture == Resolved(Join(c.chunks))
              && t.effects == [Unlisten(AddHeapSnapshotChunk), Unlisten(ReportHeapSnapshotProgress)]
  {
    match c
    case Listening(chunks) =>
      (match e
       case Chunk(chunk) => Transition(Listening(chunks + [chunk]), [])
       case Progress(finished) =>
         if !profilerPresent then Transition(Rejected(Error(NotAvailableMessage)), [])
         else if finished != Bool(true) then Transition(c, [])
         else Transition(Resolved(Join(chunks)),
                         [Unlisten(AddHeapSnapshotChunk), Unlisten(ReportHeapSnapshotProgress)]))
    case _ => Transition(c, [])
  }

  /** A sequence of events delivered to one capture. */
  function Feed(c: Capture, events: seq<SnapshotEvent>, profilerPresent: bool): Transition
    decreases |events|
  {
    if |events| == 0 then Transition(c, [])
    else
      var first := OnEvent(c, events[0], profilerPresent);
      var rest := Feed(first.capture, events[1..], profilerPresent);
      Transition(rest.capture, first.effects + rest.effects)
  }

  // ---------------------------------------------------------------------
  // Reference definitions
  // ---------------------------------------------------------------------

  /** The chunk strings among the events, in arrival order. */
  function ChunksOf(events: seq<SnapshotEvent>): seq<string> {
    if |events| == 0 then []
    else (if events[0].Chunk? then [events[0].chunk] else []) + ChunksOf(events[1..])
  }

  /** The position of the first finishing progress event, if any. */
  function FirstFinish(events: seq<SnapshotEvent>): (r: Option<nat>)
    ensures r.Some? ==> r.value < |events| && IsFinish(events[r.value])
    ensures r.Some? ==> forall j :: 0 <= j < r.value ==> !IsFinish(events[j])
    ensures r.None? ==> forall j :: 0 <= j < |events| ==> !IsFinish(events[j])
  {
    if |events| == 0 then None
    else if IsFinish(events[0]) then Some(0)
    else
      match FirstFinish(events[1..])
      case None => None
      case Some(i) => Some(i + 1)
  }

  lemma ChunksOfCons(events: seq<SnapshotEvent>, i: nat)
    requires 0 < i <= |events|
    ensures ChunksOf(events[..i]) ==
              (if events[0].Chunk? then [events[0].chunk] else []) + ChunksOf(events[1..][..i - 1])
  {
    assert events[..i][1..] == events[1..][..i - 1];
  }

  /**
   * The reassembler against its reference: with the profiler present, a
   * capture listening with buffer `acc` resolves exactly when a finishing
   * progress event arrives, to `acc` followed by the chunks before that
   * event, joined; it unsubscribes both handlers exactly then. Without a
   * finishing event it keeps listening with every chunk appended.
   */
  lemma {:induction false} FeedMatchesReference(acc: seq<string>, events: seq<SnapshotEvent>)
    ensures FirstFinish(events).Some? ==>
              Feed(Listening(acc), events, true)
                == Transition(Resolved(Join(acc + ChunksOf(events[..FirstFinish(events).value]))),
                              [Unlisten(AddHeapSnapshotChunk), Unlisten(ReportHeapSnapshotProgress)])
    ensures FirstFinish(events).None? ==>
              Feed(Listening(acc), events, true) == Transition(Listening(acc + ChunksOf(events)), [])
    decreases |events|
  {
    if |events| == 0 {
      assert acc + [] == acc;
    } else if IsFinish(events[0]) {
      var first := OnEvent(Listening(acc), events[0], true);
      SettledIgnoresEvents(first.capture, events[1..], true);
      assert first.effects + [] == first.effects;
      assert events[..0] == [];
      assert acc + [] == acc;
    } else {
      FeedStepsOver(acc, events);
    }
  }

  /** The inductive step of the reference lemma, for an event that does not finish the capture. */
  lemma {:induction false} FeedStepsOver(acc: seq<string>, events: seq<SnapshotEvent>)
    requires |events| > 0 && !IsFinish(events[0])
    ensures FirstFinish(events).Some? ==>
              Feed(Listening(acc), events, true)
                == Transition(Resolved(Join(acc + ChunksOf(events[..FirstFinish(events).value]))),
                              [Unlisten(AddHeapSnapshotChunk), Unlisten(ReportHeapSnapshotProgress)])
    ensures FirstFinish(events).None? ==>
              Feed(Listening(acc), events, true) == Transition(Listening(acc + ChunksOf(events)), [])
    decreases |events|, 0
  {
    var e := events[0];
    var head := if e.Chunk? then [e.chunk] else [];
    var acc' := acc + head;
    var first := OnEvent(Listening(acc), e, true);
    assert first == Transition(Listening(acc'), []);
    var rest := Feed(Listening(acc'), events[1..], true);
    assert Feed(Listening(acc), events, true) == Transition(rest.capture, [] + rest.effects);
    assert [] + rest.effects == rest.effects;
    FeedMatchesReference(acc', events[1..]);
    assert ChunksOf(events) == head + ChunksOf(events[1..]);
    match FirstFinish(events[1..])
    case Some(i) =>
      assert FirstFinish(events) == Some(i + 1);
      ChunksOfCons(events, i + 1);
      assert acc' + ChunksOf(events[1..][..i]) == acc + ChunksOf(events[..i + 1]);
    case None =>
      assert acc' + ChunksOf(events[1..]) == acc + ChunksOf(events);
  }

  /** A settled capture stays as it is and does nothing more: resolution happens once. */
  lemma {:induction false} SettledIgnoresEvents(c: Capture, events: seq<SnapshotEvent>, profilerPresent: bool)
    requires c.Settled()
    ensures Feed(c, events, profilerPresent) == Transition(c, [])
    decreases |events|
  {
    if |events| > 0 {
      SettledIgnoresEvents(c, events[1..], profilerPresent);
    }
  }

  /** The whole `takeSnapshot()` call: its executor, then the events it hears. */
  function TakeSnapshot(events: seq<SnapshotEvent>, profilerPresent: bool): Transition {
    var begun := Begin(profilerPresent);
    var fed := Feed(begun.capture, events, profilerPresent);
    Transition(fed.capture, begun.effects + fed.effects)
  }

  /** Three chunks followed by a finished progress event resolve to the three joined in order. */
  lemma TakeSnapshotJoinsInOrder(a: string, b: string, c: string)
    ensures TakeSnapshot([Chunk(a), Chunk(b), Chunk(c), Progress(Bool(true))], true).capture
              == Resolved(a + b + c)
  {
    var evs := [Chunk(a), Chunk(b), Chunk(c), Progress(Bool(true))];
    TakeSnapshotResolvesOnFinish(evs);
    assert evs[1..][1..][1..] == [Progress(Bool(true))];
    assert FirstFinish(evs[1..][1..][1..]) == Some(0);
    assert FirstFinish(evs) == Some(3);
    var before := evs[..3];
    assert before[1..][1..][1..] == [];
    assert ChunksOf(before[1..][1..]) == [c];
    assert ChunksOf(before[1..]) == [b, c];
    assert ChunksOf(before) == [a, b, c];
    JoinTwo(b, c);
    assert [a, b, c][1..] == [b, c];
    assert Join([a, b, c]) == a + (b + c);
  }

  /** A finished progress event with no chunk before it resolves to the empty string. */
  lemma TakeSnapshotOfNothing()
    ensures TakeSnapshot([Progress(Bool(true))], true).capture == Resolved("")
  {
    TakeSnapshotResolvesOnFinish([Progress(Bool(true))]);
    assert FirstFinish([Progress(Bool(true))]) == Some(0);
    assert [Progress(Bool(true))][..0] == [];
  }

  /** Progress that is not finished changes nothing, and chunks after the finish are not collected. */
  lemma TakeSnapshotStopsAtFinish(a: string, b: string, c: string, n: int)
    ensures TakeSnapshot([Chunk(a), Progress(Num(n)), Chunk(b), Progress(Bool(true)), Chunk(c)], true).capture
              == Resolved(a + b)
  {
    var evs := [Chunk(a), Progress(Num(n)), Chunk(b), Progress(Bool(true)), Chunk(c)];
    TakeSnapshotResolvesOnFinish(evs);
    assert evs[1..][1..][1..] == [Progress(Bool(true)), Chunk(c)];
    assert FirstFinish(evs[1..][1..][1..]) == Some(0);
    assert FirstFinish(evs) == Some(3);
    var before := evs[..3];
    assert before[1..][1..][1..] == [];
    assert ChunksOf(before[1..][1..]) == [b];
    assert ChunksOf(before[1..]) == [b];
    assert ChunksOf(before) == [a, b];
    JoinTwo(a, b);
  }

  /**
   * A whole capture with the profiler present: both listeners are
   * registered before the command, and it resolves, with the listeners
   * removed, exactly when a finishing event arrives.
   */
  lemma TakeSnapshotResolvesOnFinish(events: seq<SnapshotEvent>)
    ensures var t := TakeSnapshot(events, true);
            && ListenersBeforeCommand(t.effects)
            && (t.capture.Resolved? <==> FirstFinish(events).Some?)
            && (t.capture.Resolved? ==> t.capture.data == Join(ChunksOf(events[..FirstFinish(events).value])))
            && (!t.capture.Resolved? ==> t.capture == Listening(ChunksOf(events)))
  {
    FeedMatchesReference([], events);
    var t := TakeSnapshot(events, true);
    var begun := Begin(true);
    var fed := Feed(begun.capture, events, true);
    assert [] + ChunksOf(events) == ChunksOf(events);
    if i :| FirstFinish(events) == Some(i) {
      assert [] + ChunksOf(events[..i]) == ChunksOf(events[..i]);
    }
    forall k | 0 <= k < |t.effects| && t.effects[k].Post?
      ensures Listen(AddHeapSnapshotChunk) in t.effects[..k] && Listen(ReportHeapSnapshotProgress) in t.effects[..k]
    {
      assert k == 2;
      assert t.effects[..k] == [Listen(AddHeapSnapshotChunk), Listen(ReportHeapSnapshotProgress)];
    }
  }

  /** Without the profiler the capture rejects at once and never listens. */
  lemma TakeSnapshotWithoutProfiler(events: seq<SnapshotEvent>)
    ensures TakeSnapshot(events, false) == Transition(Rejected(Error(NotAvailableMessage)), [])
  {
    SettledIgnoresEvents(Rejected(Error(NotAvailableMessage)), events, false);
  }
}

=== FILE: wrappers.dfy ===
/** The conventional optional-value datatype used throughout the model. */
module Wrappers {

  /** Some value, or None where the source has `null`/`undefined`/`NaN`. */
  datatype Option<+T> = None | Some(value: T)
}
